=== FILE: README.md ===
# Snippet manager on a GitHub repository — Dafny model

The application keeps code snippets as Markdown files in one directory of a
GitHub repository. Each file `<dir>/<id>.md` has YAML front matter with the
metadata (title, description, language, timestamps, tags, visibility) and
the code as its body. A small web front end lists, shows, creates, edits and
deletes them. Writing and seeing private snippets is for the GitHub users on
the allow-list; when the allow-list is unset or holds only commas, it is for
every signed-in user.

This project models the pure logic of that application and proves what it
promises:

- **Repository.** `src/lib/github.ts` is modelled in modules `Store` and
  `Repository`. It covers listing, reading, creating, updating and deleting
  snippets over a modelled contents API. The API keeps a map from paths to
  blobs with shas, sha-guarded writes and a commit log.
- **Language tags.** `src/lib/utils.ts` and `src/components/code-block.tsx`
  are modelled in module `Language`. It covers extension inference, tag
  normalisation and Markdown detection. The copy of `isMarkdownFile` in
  `src/components/snippet-files.tsx` is character for character the same
  function. It is modelled once, as `Language.IsMarkdownFile`, and the file
  view uses it.
- **Previews.** `src/components/snippet-card.tsx` and
  `src/components/snippet-files.tsx` are modelled in module `Preview`. It
  covers line-based truncation, the "view full snippet" marker and tab
  selection.
- **Editor form.** `src/components/snippet-editor.tsx` is modelled in module
  `Editor`. It covers the initial state, validation, tag parsing, trimming
  and the request chosen.
- **Allow-list.** `src/lib/config.ts` is modelled in module `Config`. It
  covers environment defaults, allow-list parsing and `isAuthorizedUser`.
- **API routes.** The two snippet routes are modelled in module `Routes`.
  It covers the 401/403/400/500 ladder of `POST /api/snippets/new` and the
  visibility filter of `GET /api/snippets`. The create route as written
  refuses every request the editor sends (see Findings), so the module also
  holds a corrected create route that accepts them.
- **Translations.** `src/lib/i18n.ts` and `src/components/i18n-provider.tsx`
  are modelled in module `I18n`. It covers both tables, the locale
  fallback, the saved-locale guard and `t` with `{param}` substitution.
- **Search index.** `scripts/build-search-index.js` is modelled in module
  `SearchIndex`. It covers the public-only filter, the joined code, the
  `<`/`>` escaping and the page URL.

Modules `Base`, `Seqs`, `Strings`, `Snippets` and `Sorting` hold the shared
pieces:

- `Option`/`Result`;
- JavaScript truthiness and `||`;
- `filter`;
- the JavaScript string operations;
- the records;
- the newest-first sort.

Some inputs cannot be computed inside the model. They are parameters:

- the clock (`now`, an integer);
- the random id of a new snippet;
- the sha the server gives a new blob;
- the session lookup;
- the outcome of the repository call inside the POST route;
- failing API calls, as sets of paths on which reads or writes throw.

## Model

| member | source | states |
|---|---|---|
| Seqs.Filter | src/app/api/snippets/route.ts:16 | `filter` keeps the passing elements in their original order: the result is a subsequence, every kept element passes, every passing element is kept, and the whole list is kept when all pass |
| Seqs.FilterCount | src/app/api/snippets/route.ts:16 | every passing element is kept as often as it occurs, and no other element is kept |
| Seqs.FilterCountAll | src/app/api/snippets/route.ts:16 | the multiplicity law of `filter` for all elements at once |
| Strings.Trim | src/lib/github.ts:98 | `trim()` removes exactly the JavaScript white space at both ends: the result is a contiguous part of the input, everything before and after it is white space, and it neither starts nor ends with white space |
| Strings.ReplaceFirst | src/components/i18n-provider.tsx:37 | `replace` with a string pattern changes only the first occurrence and leaves the text unchanged when the pattern is absent |
| Strings.SplitJoin | src/lib/config.ts:10 | splitting a comma-join of comma-free parts gives back the parts |
| Strings.JoinSplit | src/components/snippet-card.tsx:10 | joining the pieces of a split with the separator gives back the string |
| Language.DetectLanguage | src/lib/utils.ts:6-23 | a listed extension, in any case and with or without a dot before it, yields its table entry; any other extension yields `text` |
| Language.ExtensionAfterLastDot | src/lib/utils.ts:7 | the extension of `stem.ext` is `ext` lower-cased when `ext` has no dot: the text after the last dot |
| Language.ExtensionWithoutDot | src/lib/utils.ts:7 | a name without a dot is its own extension, lower-cased |
| Language.DetectListedExtension | src/lib/utils.ts:7-22 | a listed extension in any letter case yields its table entry |
| Language.DetectUnlistedExtension | src/lib/utils.ts:22 | an extension outside the table yields `text` |
| Language.DetectUpperCaseExtension | src/lib/utils.ts:7-10 | `A.PY` is `python` |
| Language.DetectBareGo | src/lib/utils.ts:7-10 | `go` with no dot is its own extension and yields `go` |
| Language.DetectUnlistedWithoutDot | src/lib/utils.ts:7-22 | a dotless name that is not a listed extension yields `text` |
| Language.DetectMakefile | src/lib/utils.ts:7-22 | `Makefile` yields `text` |
| Language.DetectEmptyExtension | src/lib/utils.ts:7-22 | a trailing dot and the empty name yield `text` |
| Language.MarkdownBySuffix | src/lib/utils.ts:28-32 | for a name `stem.ext` with a dot-free `ext`: Markdown exactly when the language is `markdown` or `ext` is `md` or `markdown` in any case; a listed suffix makes any name Markdown |
| Language.IsMarkdownFile | src/lib/utils.ts:28-32 | the language `markdown` always makes a file Markdown; otherwise the name must be at least as long as `.md` |
| Language.NormalizeLanguage | src/components/code-block.tsx:13-28 | a lower-cased tag that is an alias maps to its target, any other tag to its lower-cased self, and the result is lower case |
| Language.NormalizeIgnoresCase | src/components/code-block.tsx:28 | normalising a tag equals normalising its lower-cased form |
| Language.NormalizeIdempotent | src/components/code-block.tsx:13-28 | normalising twice equals normalising once, since no alias target is an alias key |
| Language.NormalizeExamples | src/components/code-block.tsx:13-28 | `JS` → `javascript`, `shell` → `bash`, `md` → `markdown`, `Rust` → `rust` |
| Language.PropertyRead | src/lib/utils.ts:22 | a property read on an object literal returns the own entry, an inherited `Object.prototype` member, or `undefined` |
| Language.DetectLanguageAsWritten | src/lib/utils.ts:22 | `langMap[ext] \|\| 'text'` as written is always truthy, and `text` for an extension that is neither listed nor an inherited member name |
| Language.NormalizeLanguageAsWritten | src/components/code-block.tsx:28 | `languageMap[lower] \|\| lower` as written is never `undefined`, and the lower-cased tag when it is neither an alias nor an inherited member name |
| Language.TablesOwnNoInheritedName | src/lib/utils.ts:8-21 | no key of either table is an inherited member name |
| Language.TableEntriesNonEmpty | src/lib/utils.ts:8-21 | every table entry is non-empty, so `||` never falls through on a listed key |
| Language.DetectAgreement | src/lib/utils.ts:22 | for one filename, `detectLanguage` as written returns the own-property result unless the extension is an inherited member name, and then that member |
| Language.NormalizeAgreement | src/components/code-block.tsx:28 | for one tag, the normalisation as written returns the own-property result unless the lower-cased tag is an inherited member name, and then that member |
| Language.AsWrittenAgreement | src/lib/utils.ts:22 | the lookups as written agree with the own-property lookups except on inherited member names, where they return an object instead of a string |
| Language.PrototypeLookupCounterexample | src/components/code-block.tsx:28 | `Foo.constructor` and the tag `Constructor` make the lookups as written return the `Object` constructor, while the corrected detection gives `text` |
| Config.ParseAllowList | src/lib/config.ts:10 | the allow-list is the comma-separated segments with empty ones dropped, in order, untrimmed and each as often as it occurs; it never contains `""` |
| Config.Load | src/lib/config.ts:1-12 | the branch and the snippets path are never empty, and every allow-listed name is non-empty and comma-free |
| Config.IsAuthorizedUser | src/lib/config.ts:14-19 | only a non-empty user name is admitted; a listed name is always admitted; with a non-empty list only listed names are |
| Config.LoadDefaults | src/lib/config.ts:3-10 | an unset branch is `main`, an unset snippets path is `snippets`, an unset allow-list is empty; set values are taken as they are |
| Config.AnonymousNeverAuthorized | src/lib/config.ts:15 | a null, undefined or empty user name is never authorized |
| Config.AuthorizationByAllowList | src/lib/config.ts:14-19 | an empty allow-list admits every non-empty name; a non-empty one admits exactly its members, case-sensitively |
| Config.AuthorizedAgainstRawList | src/lib/config.ts:10-19 | against the raw variable, a name is authorized iff it is non-empty and the variable has no non-empty segment or the name is one of its segments |
| Config.AllowListRoundTrip | src/lib/config.ts:10 | non-empty comma-free names joined with commas parse back to the same list |
| Config.AllowListIsNotTrimmed | src/lib/config.ts:10 | `a, b` lists `a` and `" " + b`, so it admits `b` only when `b` is `a` (e.g. `alice, bob` does not admit `bob`) |
| I18n.GetTranslations | src/lib/i18n.ts:222-224 | `en` and `zh` select their own table; any other locale selects the default locale's |
| I18n.En | src/lib/i18n.ts:5-110 | the English table gives every key of the `Translations` type a non-empty text, so `t` never falls back to the key's name |
| I18n.Zh | src/lib/i18n.ts:112-217 | the Chinese table gives every key of the `Translations` type a non-empty text, so the two tables define the same keys |
| I18n.EnglishCountPlaceholders | src/lib/i18n.ts:23-92 | the English `snippetCount`, `filesCount` and `revisionsCount` texts contain `{count}` |
| I18n.ChineseCountPlaceholders | src/lib/i18n.ts:130-199 | the Chinese `snippetCount`, `filesCount` and `revisionsCount` texts contain `{count}` |
| I18n.CountEntriesHavePlaceholder | src/lib/i18n.ts:23-199 | `snippetCount`, `filesCount` and `revisionsCount` contain `{count}` in both locales |
| I18n.InitialLocale | src/components/i18n-provider.tsx:16-23 | a saved locale is adopted only when it is non-empty and one of the configured locales; otherwise the default locale stays |
| I18n.TranslateReadsTable | src/components/i18n-provider.tsx:31-33 | `t` substitutes into the current locale's text, and an unknown locale reads the default table |
| I18n.TranslateWithoutParams | src/components/i18n-provider.tsx:31-41 | without parameters `t` returns the locale's text unchanged |
| I18n.AbsentPlaceholderSkipped | src/components/i18n-provider.tsx:35-38 | a parameter whose placeholder does not occur leaves the text unchanged |
| I18n.SubstituteOne | src/components/i18n-provider.tsx:36-38 | a parameter replaces only the first occurrence of `{name}`, keeping the text before and after it |
| I18n.SubstituteSingle | src/components/i18n-provider.tsx:37 | one parameter is exactly one first-occurrence replacement of its placeholder |
| I18n.Substitute | src/components/i18n-provider.tsx:35-38 | no parameters leave the text unchanged, and so does any parameter list on a text without `{` |
| I18n.Translate | src/components/i18n-provider.tsx:31-41 | without parameters `t` returns the current locale's table text, never empty; a text without `{` comes back unchanged whatever the parameters |
| Strings.ReplaceAtStart | src/components/i18n-provider.tsx:37 | a placeholder at the very start is the one replaced |
| Preview.FirstLines | src/components/snippet-card.tsx:10 | the first `n` lines are a prefix of the code, the whole code when it has at most `n` lines, and otherwise followed in the code by a line break and the remaining lines |
| Preview.CardCodeShape | src/components/snippet-card.tsx:10-46 | the card shows code of at most ten lines unchanged, and longer code as a strictly shorter prefix followed by `\n...` |
| Preview.CardCode | src/components/snippet-card.tsx:10-11 | code of at most ten lines is shown whole; longer code is a proper prefix of it followed by `\n...` |
| Preview.CardCodeMarkerAmbiguity | src/components/snippet-card.tsx:10-46 | ten lines followed by a line `...` have eleven lines yet are shown exactly as they are |
| Preview.RenderCard | src/components/snippet-card.tsx:10-54 | the card links to `/snippet/<id>`, shows the snippet's title, description and language, the tags in stored order, the description iff it is non-empty, the code as `CardCode` cuts it (whole when it has at most ten lines), and the "view full" link iff the code has more than ten lines |
| Preview.RenderFile | src/components/snippet-files.tsx:30-81 | Markdown is decided by `isMarkdownFile`; outside preview the whole code is shown with no marker; the marker shows iff preview is on and the file has more than 20 (Markdown) or 10 (code) lines; in preview a Markdown file shows its first 20 lines and a code file shows what the card shows |
| Preview.RenderFilePreview | src/components/snippet-files.tsx:33-65 | in preview a Markdown file shows all of its text within 20 lines; beyond that it shows exactly 20 lines, which the code continues with a line break and the remaining lines; a code file shows what the card would show |
| Preview.RenderFiles | src/components/snippet-files.tsx:83-132 | no files render nothing, one file renders without tabs, several render one tab per file in order with the active file's content |
| Preview.TabsNeverBreak | src/components/snippet-files.tsx:87-129 | the active tab starts at 0 and clicks land only on rendered tabs, so for a fixed file list the active index always names a file |
| Editor.InitialForm | src/components/snippet-editor.tsx:21-26 | without a snippet the form is empty, public and `javascript`; with one it holds the snippet's fields, its tags joined with `, `, and `javascript` for an empty language |
| Editor.ParseTags | src/components/snippet-editor.tsx:54 | every tag is non-empty, trimmed and comma-free, the tags keep the order of the comma-separated pieces, and every non-empty trimmed piece appears among the tags |
| Editor.ParseTagsCount | src/components/snippet-editor.tsx:54 | every non-empty trimmed piece becomes a tag exactly as often as it occurs among the pieces; the empty piece never becomes a tag |
| Editor.Submit | src/components/snippet-editor.tsx:30-56 | nothing is sent iff the trimmed title or trimmed code is empty; otherwise create mode POSTs to `/api/snippets/new`, edit mode PUTs to `/api/snippets/<id>`, and title, description and code are sent trimmed with the parsed tags |
| Editor.DeleteRequest | src/components/snippet-editor.tsx:74-85 | a DELETE to the snippet's URL is sent iff there is a snippet and the user confirmed |
| Editor.TagsRoundTrip | src/components/snippet-editor.tsx:25-54 | well-formed tags shown joined with `, ` are parsed back to the same list |
| Editor.UnchangedEditResubmits | src/components/snippet-editor.tsx:21-56 | saving an unchanged edit form of a trimmed snippet sends back exactly its own fields |
| Sorting.Insert | src/lib/github.ts:59-61 | inserting adds exactly that snippet, one element longer, and the head is either the new snippet or the old head |
| Sorting.InsertNewestFirst | src/lib/github.ts:59-61 | inserting into a newest-first list keeps it newest first |
| Sorting.SortNewestFirst | src/lib/github.ts:59-61 | the sorted list is newest `updatedAt` first and a permutation of the input |
| Sorting.SortedMembers | src/lib/github.ts:59-61 | sorting keeps the length and the members, and a list without repeated filenames stays without repeats |
| Store.Listing | src/lib/github.ts:37-51 | a directory listing holds an entry per file directly in it, of type `file` iff it is a regular file, named after its path |
| Store.GetContent | src/lib/github.ts:76-85 | reading a path gives the file there, else the directory listing there, else not-found; a failing call throws |
| Store.PutFile | src/lib/github.ts:204-212 | a write succeeds iff the call does not fail, the path is not a directory and does not lie below a file, and the sha names the current blob (none for a new file); it writes the blob and appends one commit |
| Store.DeleteFile | src/lib/github.ts:257-264 | a delete succeeds iff the call does not fail and the sha names the current blob; it removes only that path and appends one commit |
| Store.StaleShaRejected | src/lib/github.ts:204-212 | a write carrying a sha read before another successful write to the path is refused once the first write changed the file's content (and with it its sha) |
| Store.PutThenGet | src/lib/github.ts:136-143 | reading a path just written gives the content written |
| Store.WrittenFileListed | src/lib/github.ts:136-143 | a file written into a directory shows up in its listing as a file entry |
| Repository.IdRoundTrip | src/lib/github.ts:90-91 | the id of the filename `id + ".md"` is `id` when `id` contains no `.md` |
| Repository.IdOfFilename | src/lib/github.ts:91 | a filename without `.md` is its own id; otherwise the id is three characters shorter |
| Repository.IdRoundTripFails | src/lib/github.ts:91 | when the id contains `.md`, its first `.md` is removed instead of the extension |
| Repository.ReadSnippet | src/lib/github.ts:90-104 | present front-matter values are taken as they are; missing ones default: title → id, description → `""`, language → `text`, timestamps → now, tags → `[]`; code trimmed; public unless explicitly `false` |
| Repository.GetSnippetContent | src/lib/github.ts:68-109 | a snippet exactly when the path holds a regular file whose front matter parses; null for a directory, another entry type, a missing path or a failed call |
| Repository.CandidateFilename | src/lib/github.ts:50-52 | a listed candidate's snippet carries the entry's name as its filename |
| Repository.CollectSnippets | src/lib/github.ts:48-57 | the loop keeps exactly the snippets that candidate entries (`type === 'file'`, name ending in `.md`) read as, skipping nulls, with no filename twice |
| Repository.ListSnippets | src/lib/github.ts:32-66 | the listing is newest first, holds exactly the readable `.md` files of the directory, each once, and is `[]` when the directory cannot be listed |
| Repository.CreateSnippet | src/lib/github.ts:111-161 | creation succeeds iff the new path can be written; it writes one file `<dir>/<id>.md` with both timestamps `now` and commit `Create snippet: <title>`; on failure null and nothing changes |
| Repository.PlanUpdate | src/lib/github.ts:177-195 | the update proceeds only for a regular parseable file, taking its sha and its `createdAt`, or `now` when absent |
| Repository.CommitUpdate | src/lib/github.ts:191-225 | the write replaces the file under the sha read with `updatedAt = now` and commit `Update snippet: <title>`; on failure null and nothing changes |
| Repository.UpdateSnippet | src/lib/github.ts:163-233 | the update succeeds iff the snippet reads and the write is allowed; it keeps the stored `createdAt`, sets `updatedAt` to now; on failure nothing changes |
| Repository.DeleteSnippet | src/lib/github.ts:235-271 | true iff the file can be read and deleted; then only its path is removed with commit `Delete snippet: <id>`; false and nothing changes otherwise |
| Repository.ReadFrontOf | src/lib/github.ts:93-104 | the front matter written for an input reads back with the read defaults applied |
| Repository.ReadWritten | src/lib/github.ts:93-104 | reading a file the repository wrote gives back what was written, up to the read defaults |
| Repository.CreateThenRead | src/lib/github.ts:118-160 | a created snippet reads back as created, up to the read defaults |
| Repository.CreateThenListed | src/lib/github.ts:32-61 | a created snippet is among those a listing of its directory yields |
| Repository.UpdateThenRead | src/lib/github.ts:185-225 | an updated snippet reads back with the new fields, its original `createdAt` and `updatedAt = now` |
| Repository.ConcurrentUpdateRejected | src/lib/github.ts:185-212 | of two updates planned against the same state, the second fails and changes nothing once the first is written and changed the file's content (and with it its sha) |
| Repository.DeleteThenRead | src/lib/github.ts:253-266 | a deleted snippet no longer reads, and every other file is unchanged |
| Routes.CreationRequest | src/app/api/snippets/new/route.ts:26-33 | title and files pass through; a present description and present tags pass through, missing ones become `""` and `[]`; public unless `isPublic` is explicitly `false` |
| Routes.PostNew | src/app/api/snippets/new/route.ts:7-46 | 200 with the snippet iff credentials, allow-list, body and creation all pass; 401 iff the session lacks login or token; 403 iff it has them but is not allowed; 400 iff allowed with a body lacking title or files; the 500 "Failed to create snippet" answer iff the session lookup fails, or an allowed caller sends a malformed body or a valid one whose creation returns null or throws |
| Routes.CredentialsCheckedFirst | src/app/api/snippets/new/route.ts:11-13 | missing credentials give 401 whatever the body and the creation outcome |
| Routes.BodyCheckedAfterAuthorization | src/app/api/snippets/new/route.ts:11-24 | an unauthorized caller gets 401 or 403 whatever the body |
| Routes.ForbiddenAgainstRawList | src/app/api/snippets/new/route.ts:15-17 | a signed-in user is refused with 403 exactly when the raw allow-list has a non-empty segment and the login is none of its segments |
| Routes.GetSnippets | src/app/api/snippets/route.ts:7-23 | an authorized caller gets the listing unchanged; anyone else gets an order-preserving subsequence holding exactly its public snippets; a failing session lookup gives 500 |
| Routes.AnonymousSeesOnlyPublic | src/app/api/snippets/route.ts:14-16 | an anonymous caller never sees a private snippet |
| Routes.EditorBody | src/components/snippet-editor.tsx:49-56 | the editor's create request carries title, code and language and no `files` |
| Routes.EditorCreateRefused | src/app/api/snippets/new/route.ts:20-24 | as written, every create request the editor sends from an allowed session is answered 400 |
| Routes.CreationInput | src/lib/github.ts:111-131 | the corrected route passes title and code through, a present description, language and tags too, with `""`, `""` and `[]` for missing ones, public unless explicitly `false` |
| Routes.PostCreate | src/app/api/snippets/new/route.ts:7-46 | the corrected route: the same 401/403 ladder, the 500 answer iff the session lookup fails or an allowed caller sends a malformed body or a valid one whose creation fails, 400 iff an allowed caller's body lacks title or code, 200 with the snippet iff everything passes |
| Routes.PayloadAccepted | src/components/snippet-editor.tsx:49-56 | under the corrected route, a payload with a title and code from an allowed session is accepted and reaches `createSnippet` with exactly its fields |
| Routes.EditorCreateAccepted | src/components/snippet-editor.tsx:30-56 | under the corrected route, every create request the editor sends from an allowed session is accepted with exactly the editor's fields |
| SearchIndex.ReplaceAll | scripts/build-search-index.js:31 | a global replacement leaves no replaced character unless the replacement has it, and adds no character absent from input and replacement |
| SearchIndex.Escape | scripts/build-search-index.js:31 | the escaped content contains no `<` and no `>` |
| SearchIndex.TwoPassesEscapeEach | scripts/build-search-index.js:31 | the two global replacements equal escaping each character on its own: `<` → `&lt;`, `>` → `&gt;` |
| SearchIndex.EscapeKeepsOthers | scripts/build-search-index.js:31 | every other character, `&` included, is left as it was |
| SearchIndex.UnescapeEscape | scripts/build-search-index.js:31 | code without `&` is recovered from its escape |
| SearchIndex.JoinedCode | scripts/build-search-index.js:21 | one file's content is its code |
| SearchIndex.JoinedCodeAppend | scripts/build-search-index.js:21 | each further file adds a blank line and its code at the end, so code appears in file order |
| SearchIndex.PageOf | scripts/build-search-index.js:21-38 | a snippet's page is at `/snippet/<id>` and holds its escaped joined code |
| SearchIndex.PublicSnippets | scripts/build-search-index.js:18-19 | the indexed snippets are the public ones in listing order, each as often as it occurs |
| SearchIndex.BuildPages | scripts/build-search-index.js:18-42 | exactly one page per public snippet, in listing order: page `i` is the page of the `i`-th public snippet |
| SearchIndex.PagesArePublicAndEscaped | scripts/build-search-index.js:18-37 | every page comes from a public snippet of the listing, at its URL, with no `<` or `>` in its code |
| SearchIndex.PublicSnippetsIndexed | scripts/build-search-index.js:18-19 | every public snippet gets its page |

## Left out

- Octokit HTTP calls are replaced by module `Store`, which follows the GitHub contents API as the code relies on it. The base64 `Buffer` transport is left out. So is the gray-matter YAML text: a file holds its parsed front matter, or text that does not parse.
- `crypto.randomUUID()` and `new Date().toISOString()` are parameters. Timestamps are integers, so the newest-first sort compares integers, not parsed ISO dates. A date that does not parse, which makes the comparator return `NaN`, is not modelled.
- Store.PutFile: the new sha a write produces is a free parameter, not tied to the content written. On GitHub it is the hash of the blob, so rewriting the same content keeps the sha. Store.StaleShaRejected and Repository.ConcurrentUpdateRejected therefore assume that the first write changed the sha. The contents API is assumed to refuse a write that names a sha for a path that does not exist, to refuse writing a file where a directory is, and to refuse writing a file below a path that is a file. None of these is stated in the application's code.
- Repository.ListSnippets: the contents API lists at most 1,000 entries of a directory, so "exactly the readable `.md` files" holds only below that. The modelled listing has no such cap. It also does not fix the order of snippets with equal `updatedAt`. The API's entry order is not modelled (entries form a set), so only newest-first order, membership and uniqueness are stated.
- Repository.ReadSnippet: front-matter values are typed (`Option<int>` timestamps, `Option<bool>` visibility). A missing key is `None`. The falsy-but-present values YAML could give (`0`, `""` dates, a non-boolean `isPublic`) are not modelled. Neither is the extra front matter besides the keys the code reads.
- Repository.UpdateSnippet: a front matter whose `createdAt` is present but falsy is treated like a present one.
- Strings.ToLower: lower-cases ASCII letters only. JavaScript's full Unicode `toLowerCase` can change other letters and even the length of a string.
- I18n.Substitute: the parameters are an ordered sequence. `Object.entries` lists integer-like keys first and has no duplicate keys; that order and uniqueness are not modelled. Parameter values are strings. The `$`-patterns that JavaScript's `replace` interprets in a replacement string (`$&`, `` $` ``, `$'`, `$$`) are not modelled. A number parameter is taken as its `String(...)` text.
- The POST route as written hands `files` to `createSnippet`, which expects `code` and `language`. What the repository does with that object is not modelled. `Routes.PostNew` and `Routes.PostCreate` take the outcome of the call as an input.
- Routes.PostNew: the request body is typed. The route accepts any truthy `title`, such as a number. It also accepts any truthy `files` whose `length` is not 0, such as `{}` or `true`. Those bodies are not modelled.
- The `files` field of a snippet (`SnippetFile`) does not exist on the repository's `Snippet` record. The file views and the index builder read it, so it is modelled as a separate record, `Snippets.SnippetFile`. As written, scripts/build-search-index.js:21 calls `snippet.files.map(...)` on snippets from `listSnippets`, which carry no `files`, so the script throws a TypeError at the first public snippet; `SearchIndex.BuildPages` models the intended behaviour, in which every snippet carries its files.
- The index builder's pagefind calls (`createIndex`, `addHTMLFile`, `writeFiles`), the file reads and the HTML template are left out. The title and description go into the page unescaped, and the model keeps them as they are without stating anything about the HTML.
- JSX markup, theming, the copy button, router navigation, `fetch`, `confirm()` and `localStorage` are left out. So are the search modal, the not-found page's animation, the header, footer and layout, and the next-auth wiring. Their inputs (the session, the confirmation, the saved locale) are parameters.
- Revision history, diffs and the per-snippet `GET`/`PUT`/`DELETE` routes are outside the modelled core.
- Preview.TabsNeverBreak: the file list is fixed. In the component the active tab is state that survives a re-render with a shorter file list; that case can reach a missing file and is not modelled.

## Findings

| source | as written | input that shows it | evidently intended | confidence | as-written member | corrected member |
|---|---|---|---|---|---|---|
| src/lib/utils.ts:22 | `langMap[ext] \|\| 'text'` reads a plain object literal, so an extension that names an inherited `Object.prototype` member finds that member | a file named `Foo.constructor`: `detectLanguage` returns the `Object` constructor function, not a string | only the table's own entries count, so the result is `text` | not executed | `Language.DetectLanguageAsWritten`, shown by `Language.PrototypeLookupCounterexample` | `Language.DetectLanguage`, related to the code as written by `Language.AsWrittenAgreement` |
| src/app/api/snippets/new/route.ts:20-22 | the route reads `files` and answers 400 when it is missing, but the editor (src/components/snippet-editor.tsx:49-56) sends `title`, `description`, `language`, `code`, `tags` and `isPublic` and no `files` | any create from the editor by an allowed user, e.g. title `t` and code `x` | the route reads the fields the editor sends and `createSnippet` stores, requiring title and code | not executed | `Routes.PostNew`, shown by `Routes.EditorCreateRefused` | `Routes.PostCreate` with `Routes.CreationInput`, accepting every editor request by `Routes.EditorCreateAccepted` |
| src/components/code-block.tsx:28 | `languageMap[language.toLowerCase()] \|\| language.toLowerCase()` has the same inherited-member lookup | the language tag `Constructor` normalises to the `Object` constructor instead of `constructor` | unmapped tags normalise to their lower-cased text | not executed | `Language.NormalizeLanguageAsWritten`, shown by `Language.PrototypeLookupCounterexample` | `Language.NormalizeLanguage`, related to the code as written by `Language.AsWrittenAgreement` |

=== FILE: base.dfy ===
/** Failure-carrying wrappers shared by every module: `Option` stands for the
    JavaScript `null`/`undefined` of a missing value, `Result` for a call that
    either answers or throws. */
module Base {

  datatype Option<+T> = None | Some(value: T) {

    /** The value, or `default` when there is none (JavaScript's `??`). */
    function GetOr(default: T): T {
      match this
      case Some(v) => v
      case None => default
    }
  }

  datatype Result<+T, +E> = Success(value: T) | Failure(error: E)

  /** JavaScript truthiness of an optional string: `undefined`, `null` and `""` are falsy. */
  predicate Truthy(s: Option<string>) {
    s.Some? && s.value != ""
  }

  /** `s || fallback` for an optional string. */
  function OrElse(s: Option<string>, fallback: string): (r: string)
    ensures Truthy(s) ==> r == s.value
    ensures !Truthy(s) ==> r == fallback
  {
    if Truthy(s) then s.value else fallback
  }
}

=== FILE: config.dfy ===
/** Site settings read from the environment and the allow-list check that
    gates writing and private snippets (src/lib/config.ts). */
module Config {
  import opened Base
  import opened Strings
  import opened Seqs

  /** The environment variables the settings are read from; `None` is an unset variable. */
  datatype Environment = Environment(
    owner: Option<string>,        // NEXT_PUBLIC_GITHUB_OWNER
    repo: Option<string>,         // NEXT_PUBLIC_GITHUB_REPO
    branch: Option<string>,       // NEXT_PUBLIC_GITHUB_BRANCH
    snippetsPath: Option<string>, // NEXT_PUBLIC_SNIPPETS_PATH
    token: Option<string>,        // GITHUB_TOKEN
    allowedUsers: Option<string>  // ALLOWED_GITHUB_USERS
  )

  datatype GithubSettings = GithubSettings(
    owner: string, repo: string, branch: string, snippetsPath: string, token: string)

  datatype Settings = Settings(github: GithubSettings, allowedUsers: seq<string>)

  /** `raw.split(',').filter(Boolean)`: the comma-separated names, empty ones
      dropped, nothing trimmed. */
  function ParseAllowList(raw: string): (users: seq<string>)
    ensures forall i :: 0 <= i < |users| ==> users[i] != "" && ',' !in users[i]
    ensures IsSubsequence(users, Split(raw, ','))
    ensures forall p :: p in Split(raw, ',') && p != "" ==> p in users
    ensures forall p :: multiset(users)[p] == if p != "" then multiset(Split(raw, ','))[p] else 0
  {
    FilterCountAll(Split(raw, ','), (p: string) => p != "");
    Filter(Split(raw, ','), (p: string) => p != "")
  }

  /** The settings object: every unset or empty variable takes its default. */
  function Load(env: Environment): (settings: Settings)
    ensures settings.github.branch != "" && settings.github.snippetsPath != ""
    ensures forall u :: u in settings.allowedUsers ==> u != "" && ',' !in u
  {
    Settings(
      GithubSettings(
        OrElse(env.owner, ""), OrElse(env.repo, ""), OrElse(env.branch, "main"),
        OrElse(env.snippetsPath, "snippets"), OrElse(env.token, "")),
      ParseAllowList(OrElse(env.allowedUsers, "")))
  }

  /** With nothing set, the branch is `main`, snippets live under `snippets`
      and the allow-list is empty; a set, non-empty value is taken as it is. */
  lemma LoadDefaults(env: Environment)
    ensures !Truthy(env.branch) ==> Load(env).github.branch == "main"
    ensures !Truthy(env.snippetsPath) ==> Load(env).github.snippetsPath == "snippets"
    ensures Truthy(env.branch) ==> Load(env).github.branch == env.branch.value
    ensures Truthy(env.snippetsPath) ==> Load(env).github.snippetsPath == env.snippetsPath.value
    ensures !Truthy(env.allowedUsers) ==> Load(env).allowedUsers == []
  {
    if !Truthy(env.allowedUsers) {
      assert Split("", ',') == [""];
    }
  }

  /** `isAuthorizedUser(username)` against the allow-list `allowed`. */
  predicate IsAuthorizedUser(username: Option<string>, allowed: seq<string>): (ok: bool)
    ensures ok ==> Truthy(username)
    ensures ok && |allowed| > 0 ==> username.value in allowed
    ensures Truthy(username) && username.value in allowed ==> ok
  {
    if !Truthy(username) then false
    else if |allowed| == 0 then true
    else username.value in allowed
  }

  /** A missing or empty user name is never authorized. */
  lemma AnonymousNeverAuthorized(username: Option<string>, allowed: seq<string>)
    requires !Truthy(username)
    ensures !IsAuthorizedUser(username, allowed)
  {
  }

  /** An empty allow-list admits every non-empty user name, and a non-empty
      one admits exactly its members, compared case-sensitively. */
  lemma AuthorizationByAllowList(user: string, allowed: seq<string>)
    ensures |allowed| == 0 ==> (IsAuthorizedUser(Some(user), allowed) <==> user != "")
    ensures |allowed| > 0 ==> (IsAuthorizedUser(Some(user), allowed) <==> user != "" && user in allowed)
  {
  }

  /** Against the allow-list read from a raw variable, a user is authorized iff
      the name is non-empty and either the variable has no non-empty segment
      or the name is one of its segments, character for character. */
  lemma AuthorizedAgainstRawList(user: string, raw: string)
    ensures IsAuthorizedUser(Some(user), ParseAllowList(raw)) <==>
      user != "" && ((forall p :: p in Split(raw, ',') ==> p == "") || user in Split(raw, ','))
  {
    var users := ParseAllowList(raw);
    if user != "" && user in users {
      var i :| 0 <= i < |users| && users[i] == user;
      assert users[i] in Split(raw, ',');
    }
    if |users| > 0 {
      assert users[0] in Split(raw, ',') && users[0] != "";
    }
  }

  /** Round trip: names that are non-empty and comma-free, joined with commas,
      are read back as the same list. */
  lemma AllowListRoundTrip(names: seq<string>)
    requires |names| >= 1
    requires forall i :: 0 <= i < |names| ==> names[i] != "" && ',' !in names[i]
    ensures ParseAllowList(Join(names, ",")) == names
  {
    SplitJoin(names, ',');
  }

  /** Segments are not trimmed: `"a, b"` lists `a` and `" " + b`, so it
      admits `b` only when `b` is `a` (`"alice, bob"` does not admit `bob`). */
  lemma AllowListIsNotTrimmed(a: string, b: string)
    requires a != "" && ',' !in a && b != "" && ',' !in b
    ensures ParseAllowList(a + ", " + b) == [a, " " + b]
    ensures IsAuthorizedUser(Some(b), ParseAllowList(a + ", " + b)) <==> b == a
  {
    var names := [a, " " + b];
    assert names[1..] == [" " + b];
    assert Join(names, ",") == a + "," + (" " + b);
    CommaSpace(a, b);
    assert ',' !in names[1] by {
      assert forall k :: 1 <= k < |names[1]| ==> names[1][k] == b[k - 1];
    }
    AllowListRoundTrip(names);
    assert b != " " + b by {
      assert |" " + b| == |b| + 1;
    }
  }
}

=== FILE: editor.dfy ===
/** The snippet editor form (src/components/snippet-editor.tsx): the state it
    starts from, the checks made on submit, the tag parsing and the request
    it sends. The network call and the navigation afterwards are left out;
    the request is the result. */
module Editor {
  import opened Base
  import opened Strings
  import opened Seqs
  import opened Snippets

  datatype Mode = CreateMode | EditMode

  /** The form fields; tags are the raw comma-separated text of the input box. */
  datatype Form = Form(
    title: string, description: string, language: string, code: string,
    tags: string, isPublic: bool)

  /** The JSON body sent to the API. */
  datatype Payload = Payload(
    title: string, description: string, language: string, code: string,
    tags: seq<string>, isPublic: bool)

  /** Outcome of pressing save: an error shown in the form, or a request. */
  datatype Submission =
    | Rejected(error: string)
    | Request(httpMethod: string, url: string, payload: Payload)

  /** The language the form offers first, and the one a new snippet starts with. */
  const DefaultLanguage := "javascript"

  const RequiredMessage := "Title and code are required"

  /** The form state, from the snippet being edited or from nothing. Only
      falsy strings are replaced, and `isPublic` only when there is no snippet. */
  function InitialForm(snippet: Option<Snippet>): (f: Form)
    ensures snippet.None? ==>
      f == Form("", "", DefaultLanguage, "", "", true)
    ensures snippet.Some? ==>
      && f.title == snippet.value.title
      && f.description == snippet.value.description
      && f.code == snippet.value.code
      && f.tags == Join(snippet.value.tags, ", ")
      && f.isPublic == snippet.value.isPublic
      && (snippet.value.language != "" ==> f.language == snippet.value.language)
      && (snippet.value.language == "" ==> f.language == DefaultLanguage)
  {
    match snippet
    case None => Form("", "", DefaultLanguage, "", "", true)
    case Some(s) =>
      Form(s.title, s.description, if s.language != "" then s.language else DefaultLanguage,
           s.code, Join(s.tags, ", "), s.isPublic)
  }

  /** Every element trimmed. */
  function TrimAll(parts: seq<string>): (r: seq<string>)
    ensures |r| == |parts|
    ensures forall i :: 0 <= i < |r| ==> r[i] == Trim(parts[i])
  {
    seq(|parts|, i requires 0 <= i < |parts| => Trim(parts[i]))
  }

  /** `text.split(',').map(t => t.trim()).filter(Boolean)`: every tag is
      non-empty, trimmed and comma-free, the tags keep the order of the
      pieces, and no non-empty piece is lost. */
  function ParseTags(text: string): (tags: seq<string>)
    ensures forall i :: 0 <= i < |tags| ==> tags[i] != "" && IsTrimmed(tags[i]) && ',' !in tags[i]
    ensures IsSubsequence(tags, TrimAll(Split(text, ',')))
    ensures forall i :: 0 <= i < |Split(text, ',')| && Trim(Split(text, ',')[i]) != "" ==>
      Trim(Split(text, ',')[i]) in tags
  {
    var trimmed := TrimAll(Split(text, ','));
    TrimmedPiecesCommaFree(Split(text, ','));
    Filter(trimmed, (t: string) => t != "")
  }

  /** Every non-empty trimmed piece becomes a tag as often as it occurs among
      the pieces; the empty one never does. */
  lemma ParseTagsCount(text: string, t: string)
    ensures multiset(ParseTags(text))[t] == if t != "" then multiset(TrimAll(Split(text, ',')))[t] else 0
  {
    FilterCount(TrimAll(Split(text, ',')), (t: string) => t != "", t);
  }

  /** Trimmed comma-free pieces stay comma-free. */
  lemma TrimmedPiecesCommaFree(pieces: seq<string>)
    requires forall p :: p in pieces ==> ',' !in p
    ensures forall t :: t in TrimAll(pieces) ==> ',' !in t && IsTrimmed(t)
  {
    forall i | 0 <= i < |pieces|
      ensures ',' !in TrimAll(pieces)[i]
    {
      TrimKeepsAbsent(pieces[i], ',');
    }
  }

  /** Pressing save: nothing is sent while the trimmed title or the trimmed
      code is empty; otherwise create mode posts to `/api/snippets/new` and
      edit mode puts to the snippet's own URL, which reads `undefined` when
      there is no snippet. Title, description and code are sent trimmed,
      the language as chosen and the tags parsed. */
  function Submit(form: Form, mode: Mode, snippet: Option<Snippet>): (s: Submission)
    ensures s.Rejected? <==> Trim(form.title) == "" || Trim(form.code) == ""
    ensures s.Rejected? ==> s.error == RequiredMessage
    ensures s.Request? ==>
      && s.payload.title == Trim(form.title) && s.payload.title != ""
      && s.payload.description == Trim(form.description)
      && s.payload.code == Trim(form.code) && s.payload.code != ""
      && IsTrimmed(s.payload.title) && IsTrimmed(s.payload.description) && IsTrimmed(s.payload.code)
      && s.payload.language == form.language
      && s.payload.tags == ParseTags(form.tags)
      && s.payload.isPublic == form.isPublic
    ensures s.Request? && mode == CreateMode ==>
      s.httpMethod == "POST" && s.url == "/api/snippets/new"
    ensures s.Request? && mode == EditMode ==>
      s.httpMethod == "PUT"
      && s.url == "/api/snippets/" + (if snippet.Some? then snippet.value.id else "undefined")
  {
    if Trim(form.title) == "" || Trim(form.code) == "" then Rejected(RequiredMessage)
    else
      var url := if mode == CreateMode then "/api/snippets/new"
                 else "/api/snippets/" + (if snippet.Some? then snippet.value.id else "undefined");
      Request(if mode == CreateMode then "POST" else "PUT", url,
              Payload(Trim(form.title), Trim(form.description), form.language,
                      Trim(form.code), ParseTags(form.tags), form.isPublic))
  }

  /** Pressing delete: nothing is sent without a snippet or without the
      user's confirmation; otherwise a DELETE to the snippet's URL. */
  function DeleteRequest(snippet: Option<Snippet>, confirmed: bool): (url: Option<string>)
    ensures url.Some? <==> snippet.Some? && confirmed
    ensures url.Some? ==> url.value == "/api/snippets/" + snippet.value.id
  {
    if snippet.None? || !confirmed then None else Some("/api/snippets/" + snippet.value.id)
  }

  /** Tags in the form an edited snippet's tags are shown in. */
  predicate WellFormedTag(t: string) {
    t != "" && IsTrimmed(t) && ',' !in t
  }

  /** Each tag with a space in front. */
  function Spaced(ts: seq<string>): (r: seq<string>)
    ensures |r| == |ts|
    ensures forall i :: 0 <= i < |r| ==> r[i] == " " + ts[i]
  {
    seq(|ts|, i requires 0 <= i < |ts| => " " + ts[i])
  }

  /** Joining with `", "` is joining the space-prefixed tags with `","`. */
  lemma {:induction false} JoinWithSpace(ts: seq<string>)
    requires |ts| >= 1
    ensures " " + Join(ts, ", ") == Join(Spaced(ts), ",")
    decreases |ts|
  {
    if |ts| > 1 {
      JoinWithSpace(ts[1..]);
      assert Spaced(ts)[1..] == Spaced(ts[1..]);
      assert " " + Join(ts, ", ") == (" " + ts[0]) + "," + (" " + Join(ts[1..], ", "));
    }
  }

  /** The pieces `Join(tags, ", ")` splits into at the commas: the first tag,
      then every further tag behind a space. */
  function TagPieces(tags: seq<string>): seq<string>
    requires |tags| >= 1
  {
    [tags[0]] + Spaced(tags[1..])
  }

  lemma TagPiecesJoin(tags: seq<string>)
    requires |tags| >= 1
    ensures Join(TagPieces(tags), ",") == Join(tags, ", ")
  {
    var pieces := TagPieces(tags);
    if |tags| > 1 {
      var rest := Join(tags[1..], ", ");
      JoinWithSpace(tags[1..]);
      assert pieces[0] == tags[0];
      assert pieces[1..] == Spaced(tags[1..]);
      assert Join(pieces, ",") == pieces[0] + "," + Join(pieces[1..], ",");
      assert Join(tags, ", ") == tags[0] + ", " + rest;
      CommaSpace(tags[0], rest);
    }
  }

  lemma TagPiecesTrim(tags: seq<string>)
    requires |tags| >= 1
    requires forall i :: 0 <= i < |tags| ==> WellFormedTag(tags[i])
    ensures forall i :: 0 <= i < |TagPieces(tags)| ==> ',' !in TagPieces(tags)[i]
    ensures TrimAll(TagPieces(tags)) == tags
  {
    var pieces := TagPieces(tags);
    forall i | 0 <= i < |pieces|
      ensures ',' !in pieces[i] && Trim(pieces[i]) == tags[i]
    {
      TagPieceTrim(tags, i);
    }
    assert |TrimAll(pieces)| == |tags|;
  }

  /** Piece `i` is comma-free and trims to tag `i`. */
  lemma TagPieceTrim(tags: seq<string>, i: nat)
    requires i < |tags| && WellFormedTag(tags[i])
    ensures ',' !in TagPieces(tags)[i] && Trim(TagPieces(tags)[i]) == tags[i]
  {
    var piece := TagPieces(tags)[i];
    if i == 0 {
      assert piece == tags[0];
      TrimOfTrimmed(tags[0]);
    } else {
      assert piece == Spaced(tags[1..])[i - 1] == [' '] + tags[i];
      assert ',' !in piece;
      TrimLeadingSpace(tags[i], ' ');
    }
  }

  /** Round trip of the tag box: well-formed tags shown joined with `", "`
      are parsed back to the same list, including the empty list. */
  lemma TagsRoundTrip(tags: seq<string>)
    requires forall i :: 0 <= i < |tags| ==> WellFormedTag(tags[i])
    ensures ParseTags(Join(tags, ", ")) == tags
  {
    if |tags| == 0 {
      assert Split("", ',') == [""];
      assert TrimAll([""]) == [""];
    } else {
      var text := Join(tags, ", ");
      assert Split(text, ',') == TagPieces(tags) by {
        TagPiecesJoin(tags);
        TagPiecesTrim(tags);
        SplitJoin(TagPieces(tags), ',');
      }
      assert TrimAll(Split(text, ',')) == tags by {
        TagPiecesTrim(tags);
      }
      assert forall i :: 0 <= i < |tags| ==> tags[i] != "";
      assert ParseTags(text) == Filter(tags, (t: string) => t != "");
    }
  }

  /** Saving an unchanged edit form sends back the snippet's own fields when
      they are already trimmed and its tags are well formed. */
  lemma UnchangedEditResubmits(s: Snippet)
    requires IsTrimmed(s.title) && s.title != "" && IsTrimmed(s.code) && s.code != ""
    requires IsTrimmed(s.description) && s.language != ""
    requires forall i :: 0 <= i < |s.tags| ==> WellFormedTag(s.tags[i])
    ensures Submit(InitialForm(Some(s)), EditMode, Some(s))
      == Request("PUT", "/api/snippets/" + s.id,
                 Payload(s.title, s.description, s.language, s.code, s.tags, s.isPublic))
  {
    TrimOfTrimmed(s.title);
    TrimOfTrimmed(s.code);
    TrimOfTrimmed(s.description);
    TagsRoundTrip(s.tags);
  }
}

=== FILE: i18n.dfy ===
/** Localisation: the two translation tables and their lookup (src/lib/i18n.ts),
    the site settings they draw on (config.ts), and the provider's translate
    function and saved-locale guard (src/components/i18n-provider.tsx). */
module I18n {
  import opened Base
  import opened Strings

  const SiteConfigName := "异飨客の代码片段"
  const SiteConfigTitle := "异飨客の代码片段 - 记录一些我收藏的代码片段"
  const SiteConfigDescription := "一个静态部署，代码托管在Github的代码片段"

  /** The configured locales and the one used when nothing else applies. */
  const Locales: seq<string> := ["en", "zh"]
  const DefaultLocale := "zh"

  /** The keys of the `Translations` type, one constructor per entry. */
  datatype Key =
    | SiteName | SiteTitle | SiteDescription | NewSnippet | NewSnippetShort | SignIn | SignInShort
    | SignOut | SignOutShort | AllSnippets | NoSnippets | NoSnippetsDesc | SnippetCount | Created
    | Updated | Files | Public | Private | Download | Edit | ViewFullSnippet | Copy | Copied | NewSnippetTitle
    | EditSnippetTitle | Title | TitleRequired | Description | Language | Tags | Code | CodeRequired
    | Filename | FilenameRequired | AddFile | FilesCount | RemoveFile | CreateSnippet | SaveChanges
    | Delete | Cancel | PublicLabel | Saving | ErrorTitleRequired | ErrorFileRequired | ErrorDeleteConfirm
    | SwitchToDark | SwitchToLight | SwitchLanguage | Search | SearchPlaceholder | NoSearchResults
    | SearchHint | SearchPoweredBy | Navigate | Select | Loading | Previous | Next | PageNotFound
    | PageNotFoundDesc | BackToHome | Revisions | RevisionsCount | BackToSnippet | BackToRevisions
    | ViewDiff | View | NoRevisions | Added | Deleted | Modified | RevisionNotFound | HistoricalVersion
    | ViewCurrentVersion | DiffNotFound | Renamed | FileAddedNoContent | FileDeletedNoContent
    | BinaryFile | NoChanges

  /** The property name of a key, as `t` falls back to it. */
  function KeyName(key: Key): string {
    match key
    case SiteName => "siteName"
    case SiteTitle => "siteTitle"
    case SiteDescription => "siteDescription"
    case NewSnippet => "newSnippet"
    case NewSnippetShort => "newSnippetShort"
    case SignIn => "signIn"
    case SignInShort => "signInShort"
    case SignOut => "signOut"
    case SignOutShort => "signOutShort"
    case AllSnippets => "allSnippets"
    case NoSnippets => "noSnippets"
    case NoSnippetsDesc => "noSnippetsDesc"
    case SnippetCount => "snippetCount"
    case Created => "created"
    case Updated => "updated"
    case Files => "files"
    case Public => "public"
    case Private => "private"
    case Download => "download"
    case Edit => "edit"
    case ViewFullSnippet => "viewFullSnippet"
    case Copy => "copy"
    case Copied => "copied"
    case NewSnippetTitle => "newSnippetTitle"
    case EditSnippetTitle => "editSnippetTitle"
    case Title => "title"
    case TitleRequired => "titleRequired"
    case Description => "description"
    case Language => "language"
    case Tags => "tags"
    case Code => "code"
    case CodeRequired => "codeRequired"
    case Filename => "filename"
    case FilenameRequired => "filenameRequired"
    case AddFile => "addFile"
    case FilesCount => "filesCount"
    case RemoveFile => "removeFile"
    case CreateSnippet => "createSnippet"
    case SaveChanges => "saveChanges"
    case Delete => "delete"
    case Cancel => "cancel"
    case PublicLabel => "publicLabel"
    case Saving => "saving"
    case ErrorTitleRequired => "errorTitleRequired"
    case ErrorFileRequired => "errorFileRequired"
    case ErrorDeleteConfirm => "errorDeleteConfirm"
    case SwitchToDark => "switchToDark"
    case SwitchToLight => "switchToLight"
    case SwitchLanguage => "switchLanguage"
    case Search => "search"
    case SearchPlaceholder => "searchPlaceholder"
    case NoSearchResults => "noSearchResults"
    case SearchHint => "searchHint"
    case SearchPoweredBy => "searchPoweredBy"
    case Navigate => "navigate"
    case Select => "select"
    case Loading => "loading"
    case Previous => "previous"
    case Next => "next"
    case PageNotFound => "pageNotFound"
    case PageNotFoundDesc => "pageNotFoundDesc"
    case BackToHome => "backToHome"
    case Revisions => "revisions"
    case RevisionsCount => "revisionsCount"
    case BackToSnippet => "backToSnippet"
    case BackToRevisions => "backToRevisions"
    case ViewDiff => "viewDiff"
    case View => "view"
    case NoRevisions => "noRevisions"
    case Added => "added"
    case Deleted => "deleted"
    case Modified => "modified"
    case RevisionNotFound => "revisionNotFound"
    case HistoricalVersion => "historicalVersion"
    case ViewCurrentVersion => "viewCurrentVersion"
    case DiffNotFound => "diffNotFound"
    case Renamed => "renamed"
    case FileAddedNoContent => "fileAddedNoContent"
    case FileDeletedNoContent => "fileDeletedNoContent"
    case BinaryFile => "binaryFile"
    case NoChanges => "noChanges"
  }

  /** The English table (`translations.en`): every key has a non-empty text. */
  function En(key: Key): (text: string)
    ensures text != ""
  {
    match key
    case SiteName => SiteConfigName
    case SiteTitle => SiteConfigTitle
    case SiteDescription => SiteConfigDescription
    case NewSnippet => "New Snippet"
    case NewSnippetShort => "+ New"
    case SignIn => "Sign in with GitHub"
    case SignInShort => "Login"
    case SignOut => "Sign out"
    case SignOutShort => "Logout"
    case AllSnippets => "All Snippets"
    case NoSnippets => "No snippets yet"
    case NoSnippetsDesc => "Sign in and create your first code snippet!"
    case SnippetCount => "{count} snippet(s)"
    case Created => "Created"
    case Updated => "Updated"
    case Files => "Files"
    case Public => "Public"
    case Private => "Private"
    case Download => "Download"
    case Edit => "Edit"
    case ViewFullSnippet => "View full snippet"
    case Copy => "Copy"
    case Copied => "Copied!"
    case NewSnippetTitle => "New Snippet"
    case EditSnippetTitle => "Edit Snippet"
    case Title => "Title"
    case TitleRequired => "Title *"
    case Description => "Description"
    case Language => "Language"
    case Tags => "Tags (comma separated)"
    case Code => "Code"
    case CodeRequired => "Code *"
    case Filename => "Filename"
    case FilenameRequired => "Filename *"
    case AddFile => "+ Add File"
    case FilesCount => "Files ({count})"
    case RemoveFile => "Remove this file"
    case CreateSnippet => "Create Snippet"
    case SaveChanges => "Save Changes"
    case Delete => "Delete"
    case Cancel => "Cancel"
    case PublicLabel => "Public (visible to everyone)"
    case Saving => "Saving..."
    case ErrorTitleRequired => "Title is required"
    case ErrorFileRequired => "At least one file with filename and code is required"
    case ErrorDeleteConfirm => "Are you sure you want to delete this snippet?"
    case SwitchToDark => "Switch to dark mode"
    case SwitchToLight => "Switch to light mode"
    case SwitchLanguage => "Switch language"
    case Search => "Search"
    case SearchPlaceholder => "Search snippets..."
    case NoSearchResults => "No results found"
    case SearchHint => "Type to search snippets"
    case SearchPoweredBy => "Powered by Pagefind"
    case Navigate => "navigate"
    case Select => "select"
    case Loading => "Loading..."
    case Previous => "Previous"
    case Next => "Next"
    case PageNotFound => "Page Not Found"
    case PageNotFoundDesc => "Sorry, the page you are looking for does not exist or has been removed."
    case BackToHome => "Back to Home"
    case Revisions => "Revisions"
    case RevisionsCount => "{count} revisions"
    case BackToSnippet => "Back to Snippet"
    case BackToRevisions => "Back to Revisions"
    case ViewDiff => "View Diff"
    case View => "View"
    case NoRevisions => "No revisions yet"
    case Added => "Added"
    case Deleted => "Deleted"
    case Modified => "Modified"
    case RevisionNotFound => "Revision not found"
    case HistoricalVersion => "Historical Version"
    case ViewCurrentVersion => "View Current Version"
    case DiffNotFound => "Diff not found"
    case Renamed => "Renamed"
    case FileAddedNoContent => "File added (no content to display)"
    case FileDeletedNoContent => "File deleted"
    case BinaryFile => "Binary file"
    case NoChanges => "No changes"
  }

  /** The Chinese table (`translations.zh`): every key has a non-empty text. */
  function Zh(key: Key): (text: string)
    ensures text != ""
  {
    match key
    case SiteName => SiteConfigName
    case SiteTitle => SiteConfigName + " - 代码片段管理器"
    case SiteDescription => "一个基于 GitHub 的自托管代码片段管理器"
    case NewSnippet => "新建片段"
    case NewSnippetShort => "+ 新建"
    case SignIn => "使用 GitHub 登录"
    case SignInShort => "登录"
    case SignOut => "退出登录"
    case SignOutShort => "退出"
    case AllSnippets => "所有片段"
    case NoSnippets => "暂无代码片段"
    case NoSnippetsDesc => "登录并创建你的第一个代码片段！"
    case SnippetCount => "{count} 个片段"
    case Created => "创建于"
    case Updated => "更新于"
    case Files => "文件"
    case Public => "公开"
    case Private => "私有"
    case Download => "下载"
    case Edit => "编辑"
    case ViewFullSnippet => "查看完整片段"
    case Copy => "复制"
    case Copied => "已复制!"
    case NewSnippetTitle => "新建片段"
    case EditSnippetTitle => "编辑片段"
    case Title => "标题"
    case TitleRequired => "标题 *"
    case Description => "描述"
    case Language => "语言"
    case Tags => "标签（用逗号分隔）"
    case Code => "代码"
    case CodeRequired => "代码 *"
    case Filename => "文件名"
    case FilenameRequired => "文件名 *"
    case AddFile => "+ 添加文件"
    case FilesCount => "文件 ({count})"
    case RemoveFile => "删除此文件"
    case CreateSnippet => "创建片段"
    case SaveChanges => "保存更改"
    case Delete => "删除"
    case Cancel => "取消"
    case PublicLabel => "公开（所有人可见）"
    case Saving => "保存中..."
    case ErrorTitleRequired => "标题不能为空"
    case ErrorFileRequired => "至少需要一个包含文件名和代码的文件"
    case ErrorDeleteConfirm => "确定要删除此代码片段吗？"
    case SwitchToDark => "切换到深色模式"
    case SwitchToLight => "切换到浅色模式"
    case SwitchLanguage => "切换语言"
    case Search => "搜索"
    case SearchPlaceholder => "搜索代码片段..."
    case NoSearchResults => "未找到结果"
    case SearchHint => "输入关键词搜索"
    case SearchPoweredBy => "由 Pagefind 驱动"
    case Navigate => "导航"
    case Select => "选择"
    case Loading => "加载中..."
    case Previous => "上一页"
    case Next => "下一页"
    case PageNotFound => "页面未找到"
    case PageNotFoundDesc => "抱歉，您访问的页面不存在或已被移除。"
    case BackToHome => "返回首页"
    case Revisions => "修订历史"
    case RevisionsCount => "{count} 个修订版本"
    case BackToSnippet => "返回片段"
    case BackToRevisions => "返回修订历史"
    case ViewDiff => "查看对比"
    case View => "查看"
    case NoRevisions => "暂无修订历史"
    case Added => "添加"
    case Deleted => "删除"
    case Modified => "修改"
    case RevisionNotFound => "修订版本未找到"
    case HistoricalVersion => "历史版本"
    case ViewCurrentVersion => "查看当前版本"
    case DiffNotFound => "对比数据未找到"
    case Renamed => "重命名"
    case FileAddedNoContent => "文件已添加（无内容显示）"
    case FileDeletedNoContent => "文件已删除"
    case BinaryFile => "二进制文件"
    case NoChanges => "没有变更"
  }

  /** `getTranslations(locale)`: the locale whose table is used, which is the
      locale itself when it has a table and the default locale otherwise. */
  function GetTranslations(locale: string): (table: string)
    ensures table in Locales
    ensures locale in Locales ==> table == locale
    ensures locale !in Locales ==> table == DefaultLocale
  {
    if locale == "en" then "en"
    else if locale == "zh" then "zh"
    else DefaultLocale
  }

  /** The text of `key` in the table of `table`. */
  function TableText(table: string, key: Key): string {
    if table == "en" then En(key) else Zh(key)
  }

  /** The locale adopted on start-up: a saved locale is taken only when it is
      one of the configured locales; otherwise the default stays. */
  function InitialLocale(saved: Option<string>): (locale: string)
    ensures locale in Locales
    ensures Truthy(saved) && saved.value in Locales ==> locale == saved.value
    ensures !(Truthy(saved) && saved.value in Locales) ==> locale == DefaultLocale
  {
    if Truthy(saved) && saved.value in Locales then saved.value else DefaultLocale
  }

  /** The text `{name}` that a parameter called `name` replaces. */
  function Placeholder(name: string): string {
    "{" + name + "}"
  }

  /** A text without `{` holds no placeholder. */
  lemma PlaceholderAbsent(value: string, name: string)
    ensures '{' !in value ==> !Contains(value, Placeholder(name))
  {
    if '{' !in value {
      assert Placeholder(name)[0] == '{';
      AbsentCharNotContained(value, Placeholder(name), '{');
    }
  }

  /** Applies the parameters in order; each replaces the first occurrence of its placeholder. */
  function Substitute(value: string, params: seq<(string, string)>): (r: string)
    ensures |params| == 0 ==> r == value
    ensures '{' !in value ==> r == value
    decreases |params|
  {
    if |params| == 0 then value
    else
      PlaceholderAbsent(value, params[0].0);
      Substitute(ReplaceFirst(value, Placeholder(params[0].0), params[0].1), params[1..])
  }

  /** The provider's `t(key, params)` in the current locale: the table text,
      or the key's name when the text is empty, with the parameters applied. */
  function Translate(locale: string, key: Key, params: seq<(string, string)>): (r: string)
    ensures |params| == 0 ==> r == TableText(GetTranslations(locale), key) && r != ""
    ensures '{' !in TableText(GetTranslations(locale), key) ==> r == TableText(GetTranslations(locale), key)
  {
    var text := TableText(GetTranslations(locale), key);
    Substitute(if text != "" then text else KeyName(key), params)
  }

  /** `t` substitutes into the locale's own text; an unknown locale reads the
      default locale's table. */
  lemma TranslateReadsTable(locale: string, key: Key, params: seq<(string, string)>)
    ensures locale == "en" ==> Translate(locale, key, params) == Substitute(En(key), params)
    ensures locale != "en" ==> Translate(locale, key, params) == Substitute(Zh(key), params)
  {
  }

  /** Without parameters `t` returns the locale's text unchanged. */
  lemma TranslateWithoutParams(locale: string, key: Key)
    ensures locale == "en" ==> Translate(locale, key, []) == En(key)
    ensures locale != "en" ==> Translate(locale, key, []) == Zh(key)
  {
    TranslateReadsTable(locale, key, []);
  }

  /** A parameter whose placeholder does not occur is skipped. */
  lemma AbsentPlaceholderSkipped(value: string, name: string, arg: string,
                                 rest: seq<(string, string)>)
    requires !Contains(value, Placeholder(name))
    ensures Substitute(value, [(name, arg)] + rest) == Substitute(value, rest)
  {
    assert ([(name, arg)] + rest)[1..] == rest;
  }

  /** One parameter replaces the first occurrence of its placeholder and
      leaves everything before it, and everything after it, as it was. */
  lemma SubstituteOne(value: string, name: string, arg: string)
    requires Contains(value, Placeholder(name))
    ensures exists i ::
      && OccursAt(value, Placeholder(name), i)
      && (forall k :: 0 <= k < i ==> !OccursAt(value, Placeholder(name), k))
      && Substitute(value, [(name, arg)]) == value[..i] + arg + value[i + |Placeholder(name)|..]
  {
    var pat := Placeholder(name);
    var r := ReplaceFirst(value, pat, arg);
    assert [(name, arg)][1..] == [];
    assert Substitute(value, [(name, arg)]) == r;
  }

  /** The entries that take a `{count}` parameter carry the placeholder in both locales. */
  lemma CountEntriesHavePlaceholder()
    ensures forall key :: key in [SnippetCount, FilesCount, RevisionsCount] ==>
      Contains(En(key), "{count}") && Contains(Zh(key), "{count}")
  {
    EnglishCountPlaceholders();
    ChineseCountPlaceholders();
  }

  lemma EnglishCountPlaceholders()
    ensures Contains(En(SnippetCount), "{count}")
    ensures Contains(En(FilesCount), "{count}")
    ensures Contains(En(RevisionsCount), "{count}")
  {
    assert OccursAt(En(SnippetCount), "{count}", 0);
    assert OccursAt(En(FilesCount), "{count}", 7);
    assert OccursAt(En(RevisionsCount), "{count}", 0);
  }

  lemma ChineseCountPlaceholders()
    ensures Contains(Zh(SnippetCount), "{count}")
    ensures Contains(Zh(FilesCount), "{count}")
    ensures Contains(Zh(RevisionsCount), "{count}")
  {
    assert OccursAt(Zh(SnippetCount), "{count}", 0);
    assert OccursAt(Zh(FilesCount), "{count}", 4);
    assert OccursAt(Zh(RevisionsCount), "{count}", 0);
  }

  /** A single parameter is one first-occurrence replacement. */
  lemma SubstituteSingle(value: string, name: string, arg: string)
    ensures Substitute(value, [(name, arg)]) == ReplaceFirst(value, Placeholder(name), arg)
  {
    assert [(name, arg)][1..] == [];
  }
}

=== FILE: language.dfy ===
/** Language tags: inference from a filename extension (src/lib/utils.ts),
    Markdown detection (src/lib/utils.ts, repeated verbatim in
    src/components/snippet-files.tsx) and the tag normalisation of the code
    block (src/components/code-block.tsx). */
module Language {
  import opened Strings

  /** The extension table of `detectLanguage`. */
  const ExtensionTable: map<string, string> := map[
    "js" := "javascript", "ts" := "typescript", "tsx" := "typescript", "jsx" := "javascript",
    "py" := "python", "rb" := "ruby", "go" := "go", "rs" := "rust",
    "java" := "java", "cpp" := "cpp", "c" := "c", "cs" := "csharp",
    "php" := "php", "swift" := "swift", "kt" := "kotlin", "scala" := "scala",
    "html" := "html", "htm" := "html", "css" := "css", "scss" := "scss",
    "sass" := "sass", "less" := "less", "styl" := "stylus", "stylus" := "stylus",
    "pug" := "pug", "jade" := "pug",
    "sql" := "sql",
    "sh" := "bash", "bash" := "bash", "zsh" := "bash", "ps1" := "powershell",
    "json" := "json", "yaml" := "yaml", "yml" := "yaml", "xml" := "xml",
    "md" := "markdown", "txt" := "text",
    "vue" := "vue"
  ]

  /** The alias table of the code block. */
  const AliasTable: map<string, string> := map[
    "js" := "javascript", "ts" := "typescript", "tsx" := "typescript", "jsx" := "javascript",
    "py" := "python", "rb" := "ruby", "sh" := "bash", "shell" := "bash",
    "yml" := "yaml", "md" := "markdown"
  ]

  /** The lower-cased text after the last `.` of `filename`, or all of it when
      it has no `.` (`filename.split('.').pop().toLowerCase()`). */
  function ExtensionOf(filename: string): string {
    ToLower(LastPiece(filename, '.'))
  }

  /** `detectLanguage(filename)`: the table entry for the extension, else "text". */
  function DetectLanguage(filename: string): (r: string)
    ensures r in ExtensionTable.Values || r == "text"
    ensures ExtensionOf(filename) !in ExtensionTable ==> r == "text"
    ensures ExtensionOf(filename) in ExtensionTable ==> r == ExtensionTable[ExtensionOf(filename)]
  {
    var ext := ExtensionOf(filename);
    if ext in ExtensionTable then ExtensionTable[ext] else "text"
  }

  /** The extension of `stem.ext` is the lower-cased `ext` when `ext` has no dot. */
  lemma ExtensionAfterLastDot(stem: string, ext: string)
    requires '.' !in ext
    ensures ExtensionOf(stem + "." + ext) == ToLower(ext)
  {
    assert stem + "." + ext == stem + ['.'] + ext;
    LastPieceOf(stem, '.', ext);
  }

  /** A filename without a dot is its own extension. */
  lemma ExtensionWithoutDot(filename: string)
    requires '.' !in filename
    ensures ExtensionOf(filename) == ToLower(filename)
  {
    SplitNoSeparator(filename, '.');
  }

  /** Table agreement: a listed extension, in any letter case, yields its table entry. */
  lemma DetectListedExtension(stem: string, ext: string)
    requires '.' !in ext && ToLower(ext) in ExtensionTable
    ensures DetectLanguage(stem + "." + ext) == ExtensionTable[ToLower(ext)]
  {
    ExtensionAfterLastDot(stem, ext);
  }

  /** An extension outside the table yields "text". */
  lemma DetectUnlistedExtension(stem: string, ext: string)
    requires '.' !in ext && ToLower(ext) !in ExtensionTable
    ensures DetectLanguage(stem + "." + ext) == "text"
  {
    ExtensionAfterLastDot(stem, ext);
  }

  /** Worked case: lookup ignores letter case (`A.PY` is Python). */
  lemma DetectUpperCaseExtension()
    ensures DetectLanguage("A.PY") == "python"
  {
    assert ToLower("PY") == "py";
    assert "A" + "." + "PY" == "A.PY";
    DetectListedExtension("A", "PY");
  }

  /** Worked case: a name without a dot is its own extension (`go` is Go). */
  lemma DetectBareGo()
    ensures DetectLanguage("go") == "go"
  {
    assert '.' !in "go";
    ExtensionWithoutDot("go");
    assert ToLower("go") == "go";
  }

  /** A name without a dot whose lower-cased form is not listed is "text". */
  lemma DetectUnlistedWithoutDot(filename: string)
    requires '.' !in filename && ToLower(filename) !in ExtensionTable
    ensures DetectLanguage(filename) == "text"
  {
    ExtensionWithoutDot(filename);
  }

  /** Worked case: `Makefile` has no dot and no table entry, so it is "text". */
  lemma DetectMakefile()
    ensures DetectLanguage("Makefile") == "text"
  {
    assert '.' !in "Makefile";
    assert ToLower("Makefile") == "makefile" by {
      var r := ToLower("Makefile");
      assert r[0] == LowerChar('M') == 'm';
      assert forall i :: 1 <= i < 8 ==> r[i] == "Makefile"[i];
    }
    assert "makefile" !in ExtensionTable by { }
    DetectUnlistedWithoutDot("Makefile");
  }

  /** Worked cases: a trailing dot and the empty name give "text". */
  lemma DetectEmptyExtension()
    ensures DetectLanguage("notes.") == "text"
    ensures DetectLanguage("") == "text"
  {
    assert '.' !in "";
    ExtensionAfterLastDot("notes", "");
    assert "notes" + "." + "" == "notes.";
    ExtensionWithoutDot("");
    assert ToLower("") == "";
    assert "" !in ExtensionTable;
  }

  /** `isMarkdownFile(language, filename)`. */
  predicate IsMarkdownFile(language: string, filename: string): (md: bool)
    ensures language == "markdown" ==> md
    ensures md && language != "markdown" ==> |filename| >= |".md"|
  {
    || language == "markdown"
    || EndsWith(ToLower(filename), ".md")
    || EndsWith(ToLower(filename), ".markdown")
  }

  /** Lower-casing distributes over concatenation. */
  lemma ToLowerAppend(a: string, b: string)
    ensures ToLower(a + b) == ToLower(a) + ToLower(b)
  {
  }

  /** With a dot-free last part `e`, the name `l.e` ends with a suffix made of
      a dot and a dot-free word exactly when `e` is that word. */
  lemma DotSuffix(l: string, e: string, suf: string)
    requires '.' !in e && |suf| >= 1 && suf[0] == '.' && '.' !in suf[1..]
    ensures EndsWith(l + "." + e, suf) <==> e == suf[1..]
  {
    var s := l + "." + e;
    var m := |suf|;
    if e == suf[1..] {
      assert s[|s| - m..] == "." + e;
    } else if m <= |s| {
      var start := |s| - m;
      if m - 1 < |e| {
        assert s[start] == e[start - |l| - 1];
        assert s[start..][0] != suf[0];
      } else if m - 1 > |e| {
        var j := |l| - start;
        assert s[start..][j] == s[|l|] == '.';
        assert suf[1..][j - 1] == suf[j];
        assert s[start..][j] != suf[j];
      } else {
        assert s[start..][1..] == e;
        assert s[start..][1..] != suf[1..];
      }
    }
  }

  /** Lower-casing neither adds nor removes dots. */
  lemma ToLowerDotFree(s: string)
    requires '.' !in s
    ensures '.' !in ToLower(s)
  {
    forall i | 0 <= i < |s|
      ensures ToLower(s)[i] != '.'
    {
      assert s[i] != '.';
    }
  }

  /** A name `stem.ext` is Markdown exactly when its tag is "markdown" or
      `ext`, in any letter case, is `md` or `markdown`; a listed suffix makes
      it Markdown whatever the tag. */
  lemma MarkdownBySuffix(language: string, stem: string, ext: string)
    ensures ToLower(ext) == "md" || ToLower(ext) == "markdown" ==>
      IsMarkdownFile(language, stem + "." + ext)
    ensures '.' !in ext ==>
      (IsMarkdownFile(language, stem + "." + ext) <==>
        language == "markdown" || ToLower(ext) == "md" || ToLower(ext) == "markdown")
  {
    ToLowerAppend(stem + ".", ext);
    ToLowerAppend(stem, ".");
    assert ToLower(".") == ".";
    var lowered := ToLower(stem + "." + ext);
    assert lowered == ToLower(stem) + "." + ToLower(ext);
    if ToLower(ext) == "md" {
      assert lowered[|lowered| - 3..] == ".md";
    } else if ToLower(ext) == "markdown" {
      assert lowered[|lowered| - 9..] == ".markdown";
    }
    if '.' !in ext {
      ToLowerDotFree(ext);
      assert ".md"[1..] == "md" && '.' !in "md";
      assert ".markdown"[1..] == "markdown" && '.' !in "markdown";
      DotSuffix(ToLower(stem), ToLower(ext), ".md");
      DotSuffix(ToLower(stem), ToLower(ext), ".markdown");
    }
  }

  /** The code block's `normalizedLanguage`: the alias of the lower-cased tag,
      or the lower-cased tag itself. */
  function NormalizeLanguage(language: string): (r: string)
    ensures ToLower(language) in AliasTable ==> r == AliasTable[ToLower(language)]
    ensures ToLower(language) !in AliasTable ==> r == ToLower(language)
    ensures ToLower(r) == r
  {
    var lowered := ToLower(language);
    ToLowerIdempotent(language);
    if lowered in AliasTable then AliasTable[lowered] else lowered
  }

  /** Normalisation ignores letter case. */
  lemma NormalizeIgnoresCase(language: string)
    ensures NormalizeLanguage(language) == NormalizeLanguage(ToLower(language))
  {
    ToLowerIdempotent(language);
  }

  /** No alias is itself an alias key, so normalising twice is normalising once. */
  lemma NormalizeIdempotent(language: string)
    ensures NormalizeLanguage(NormalizeLanguage(language)) == NormalizeLanguage(language)
  {
    var r := NormalizeLanguage(language);
    assert ToLower(r) == r;
    assert forall v :: v in AliasTable.Values ==> v !in AliasTable;
  }

  /** Worked cases of normalisation. */
  lemma NormalizeExamples()
    ensures NormalizeLanguage("JS") == "javascript"
    ensures NormalizeLanguage("shell") == "bash"
    ensures NormalizeLanguage("md") == "markdown"
    ensures NormalizeLanguage("Rust") == "rust"
  {
    assert ToLower("JS") == "js";
    assert ToLower("shell") == "shell";
    assert ToLower("md") == "md";
    assert ToLower("Rust") == "rust";
  }

  // ---------------------------------------------------------------------------
  // The lookups as written. Both tables are plain object literals, so `table[key]`
  // also finds the members every object inherits from `Object.prototype`.

  /** The value of a JavaScript property read. */
  datatype JsValue = Undefined | JsString(s: string) | JsObject(member: string)

  /** The members every object literal inherits. */
  const ObjectPrototypeMembers: set<string> := {
    "constructor", "__proto__", "hasOwnProperty", "isPrototypeOf", "propertyIsEnumerable",
    "toString", "toLocaleString", "valueOf",
    "__defineGetter__", "__defineSetter__", "__lookupGetter__", "__lookupSetter__"
  }

  /** `table[key]` on an object literal. */
  function PropertyRead(table: map<string, string>, key: string): (v: JsValue)
    ensures key in table ==> v == JsString(table[key])
    ensures key !in table && key in ObjectPrototypeMembers ==> v.JsObject?
    ensures key !in table && key !in ObjectPrototypeMembers ==> v == Undefined
  {
    if key in table then JsString(table[key])
    else if key in ObjectPrototypeMembers then JsObject(key)
    else Undefined
  }

  predicate JsTruthy(v: JsValue) {
    match v
    case Undefined => false
    case JsString(s) => s != ""
    case JsObject(_) => true
  }

  /** `langMap[ext] || 'text'` exactly as written. */
  function DetectLanguageAsWritten(filename: string): (v: JsValue)
    ensures JsTruthy(v)
    ensures ExtensionOf(filename) !in ExtensionTable && ExtensionOf(filename) !in ObjectPrototypeMembers ==>
      v == JsString("text")
  {
    var v := PropertyRead(ExtensionTable, ExtensionOf(filename));
    if JsTruthy(v) then v else JsString("text")
  }

  /** `languageMap[lower] || lower` exactly as written. */
  function NormalizeLanguageAsWritten(language: string): (v: JsValue)
    ensures v != Undefined
    ensures ToLower(language) !in AliasTable && ToLower(language) !in ObjectPrototypeMembers ==>
      v == JsString(ToLower(language))
  {
    var lowered := ToLower(language);
    var v := PropertyRead(AliasTable, lowered);
    if JsTruthy(v) then v else JsString(lowered)
  }

  /** The as-written lookups agree with the own-property ones except on the
      inherited member names, where they return an object instead of a string. */
  lemma AsWrittenAgreement(filename: string, language: string)
    ensures ExtensionOf(filename) !in ObjectPrototypeMembers ==>
      DetectLanguageAsWritten(filename) == JsString(DetectLanguage(filename))
    ensures ExtensionOf(filename) in ObjectPrototypeMembers ==>
      DetectLanguageAsWritten(filename) == JsObject(ExtensionOf(filename))
    ensures ToLower(language) !in ObjectPrototypeMembers ==>
      NormalizeLanguageAsWritten(language) == JsString(NormalizeLanguage(language))
    ensures ToLower(language) in ObjectPrototypeMembers ==>
      NormalizeLanguageAsWritten(language) == JsObject(ToLower(language))
  {
    DetectAgreement(filename);
    NormalizeAgreement(language);
  }

  lemma DetectAgreement(filename: string)
    ensures ExtensionOf(filename) !in ObjectPrototypeMembers ==>
      DetectLanguageAsWritten(filename) == JsString(DetectLanguage(filename))
    ensures ExtensionOf(filename) in ObjectPrototypeMembers ==>
      DetectLanguageAsWritten(filename) == JsObject(ExtensionOf(filename))
  {
    var ext := ExtensionOf(filename);
    if ext in ObjectPrototypeMembers {
      InheritedNameUnlisted(ext);
    } else if ext in ExtensionTable {
      ExtensionEntryNonEmpty(ext);
    }
  }

  lemma NormalizeAgreement(language: string)
    ensures ToLower(language) !in ObjectPrototypeMembers ==>
      NormalizeLanguageAsWritten(language) == JsString(NormalizeLanguage(language))
    ensures ToLower(language) in ObjectPrototypeMembers ==>
      NormalizeLanguageAsWritten(language) == JsObject(ToLower(language))
  {
    var lowered := ToLower(language);
    if lowered in ObjectPrototypeMembers {
      InheritedNameUnlisted(lowered);
    } else if lowered in AliasTable {
      AliasEntryNonEmpty(lowered);
    }
  }

  /** No table key is an inherited member name. */
  lemma TablesOwnNoInheritedName()
    ensures forall k :: k in ObjectPrototypeMembers ==> k !in ExtensionTable && k !in AliasTable
  {
    forall k | k in ObjectPrototypeMembers
      ensures k !in ExtensionTable && k !in AliasTable
    {
      InheritedNameUnlisted(k);
    }
  }

  /** The inherited member names are all longer than any table key. */
  lemma InheritedNameUnlisted(k: string)
    requires k in ObjectPrototypeMembers
    ensures k !in ExtensionTable && k !in AliasTable
  {
    assert |k| >= 7;
    LongNamesUnlisted(k);
  }

  /** Every table key is at most six characters long. */
  lemma LongNamesUnlisted(k: string)
    requires |k| >= 7
    ensures k !in ExtensionTable && k !in AliasTable
  {
    LongNameNoExtension(k);
    LongNameNoAlias(k);
  }

  lemma LongNameNoExtension(k: string)
    requires |k| >= 7
    ensures k !in ExtensionTable
  {
    ExtensionKeysShort();
  }

  /** No extension in the table is longer than six characters. */
  lemma ExtensionKeysShort()
    ensures forall key :: key in ExtensionTable ==> |key| <= 6
  {
  }

  lemma LongNameNoAlias(k: string)
    requires |k| >= 7
    ensures k !in AliasTable
  {
  }

  /** Every table entry is a non-empty (truthy) string. */
  lemma TableEntriesNonEmpty()
    ensures forall k :: k in ExtensionTable ==> ExtensionTable[k] != ""
    ensures forall k :: k in AliasTable ==> AliasTable[k] != ""
  {
    forall k | k in ExtensionTable
      ensures ExtensionTable[k] != ""
    {
      ExtensionEntryNonEmpty(k);
    }
    forall k | k in AliasTable
      ensures AliasTable[k] != ""
    {
      AliasEntryNonEmpty(k);
    }
  }

  lemma ExtensionEntryNonEmpty(k: string)
    requires k in ExtensionTable
    ensures ExtensionTable[k] != ""
  {
  }

  lemma AliasEntryNonEmpty(k: string)
    requires k in AliasTable
    ensures AliasTable[k] != ""
  {
  }

  /** A file named `Foo.constructor` makes `detectLanguage` return the
      `Object` constructor, and the tag `Constructor` does the same in the code block. */
  lemma PrototypeLookupCounterexample()
    ensures DetectLanguageAsWritten("Foo.constructor") == JsObject("constructor")
    ensures NormalizeLanguageAsWritten("Constructor") == JsObject("constructor")
    ensures DetectLanguage("Foo.constructor") == "text"
  {
    ConstructorName();
    ExtensionAfterLastDot("Foo", "constructor");
    assert "Foo" + "." + "constructor" == "Foo.constructor";
    InheritedNameUnlisted("constructor");
    DetectAgreement("Foo.constructor");
    NormalizeAgreement("Constructor");
  }

  /** `constructor` is an inherited member name, has no dot, and is the
      lower-cased form of itself and of `Constructor`. */
  lemma ConstructorName()
    ensures "constructor" in ObjectPrototypeMembers && '.' !in "constructor"
    ensures ToLower("constructor") == "constructor" && ToLower("Constructor") == "constructor"
  {
  }
}

=== FILE: preview.dfy ===
/** What the snippet card (src/components/snippet-card.tsx) and the file view
    (src/components/snippet-files.tsx) show of a snippet: previews cut after a
    number of lines, the "view full snippet" marker, and the tab selection of
    a multi-file snippet. The JSX markup itself is not modelled. */
module Preview {
  import opened Strings
  import opened Language
  import opened Snippets

  /** `code.split('\n')`. */
  function Lines(code: string): seq<string> {
    Split(code, '\n')
  }

  /** `code.split('\n').length`: always at least one. */
  function LineCount(code: string): nat {
    |Lines(code)|
  }

  /** `code.split('\n').slice(0, n).join('\n')`: the first `n` lines. The result
      is a prefix of the code, the whole code when it has at most `n` lines,
      and otherwise a prefix followed in the code by a line break and the rest. */
  function FirstLines(code: string, n: nat): (r: string)
    ensures r <= code
    ensures LineCount(code) <= n ==> r == code
    ensures 1 <= n < LineCount(code) ==> code == r + "\n" + Join(Lines(code)[n..], "\n")
  {
    var lines := Lines(code);
    var k := if n < |lines| then n else |lines|;
    JoinSplit(code, '\n');
    JoinPrefix(lines, k, "\n");
    assert k == |lines| ==> lines[..k] == lines;
    Join(lines[..k], "\n")
  }

  /** The marker appended to a cut code preview. */
  const Ellipsis := "\n..."

  /** The code of the card: `previewCode + (hasMoreLines ? '\n...' : '')`.
      Code of at most ten lines is shown whole; longer code is shown as a
      proper prefix of it followed by the marker. */
  function CardCode(code: string): (shown: string)
    ensures LineCount(code) <= 10 ==> shown == code
    ensures LineCount(code) > 10 ==>
      exists k :: 0 <= k < |code| && shown == code[..k] + Ellipsis
  {
    var first := FirstLines(code, 10);
    if LineCount(code) > 10 then
      assert code == first + "\n" + Join(Lines(code)[10..], "\n");
      assert first == code[..|first|];
      first + Ellipsis
    else first
  }

  /** The card shows the code unchanged when it has at most ten lines;
      otherwise it shows a strictly shorter first part of it followed by the
      marker. */
  lemma CardCodeShape(code: string)
    ensures LineCount(code) <= 10 ==> CardCode(code) == code
    ensures LineCount(code) > 10 ==>
      CardCode(code) == FirstLines(code, 10) + Ellipsis
      && FirstLines(code, 10) <= code && |FirstLines(code, 10)| < |code|
  {
  }

  /** The marker can coincide with the code itself: ten lines followed by a
      last line `...` are shown exactly as they are, though the card reports
      more lines. So "shown unchanged" does not imply "at most ten lines". */
  lemma CardCodeMarkerAmbiguity(lines: seq<string>)
    requires |lines| == 10
    requires forall i :: 0 <= i < |lines| ==> '\n' !in lines[i]
    ensures LineCount(Join(lines + ["..."], "\n")) == 11
    ensures CardCode(Join(lines + ["..."], "\n")) == Join(lines + ["..."], "\n")
  {
    var code := Join(lines + ["..."], "\n");
    MarkerLastLine(lines);
    assert (lines + ["..."])[..10] == lines;
    assert FirstLines(code, 10) == Join(lines, "\n");
  }

  /** Ten lines joined with a last line `...` read back as those eleven lines,
      and the text ends with the marker. */
  lemma MarkerLastLine(lines: seq<string>)
    requires |lines| == 10
    requires forall i :: 0 <= i < |lines| ==> '\n' !in lines[i]
    ensures Lines(Join(lines + ["..."], "\n")) == lines + ["..."]
    ensures Join(lines + ["..."], "\n") == Join(lines, "\n") + Ellipsis
  {
    var all := lines + ["..."];
    assert forall i :: 0 <= i < |all| ==> '\n' !in all[i];
    SplitJoin(all, '\n');
    JoinAppend(lines, ["..."], "\n");
    assert Join(["..."], "\n") == "...";
  }

  /** What the card renders: link, title, description when non-empty, the
      tags in stored order, the code preview and the "view full" link. */
  datatype Card = Card(
    href: string, title: string, description: string, showDescription: bool,
    tags: seq<string>, code: string, language: string, viewFullLink: bool)

  function RenderCard(s: Snippet): (c: Card)
    ensures c.tags == s.tags
    ensures c.viewFullLink <==> LineCount(s.code) > 10
    ensures c.showDescription <==> s.description != ""
    ensures c.href == "/snippet/" + s.id
    ensures c.title == s.title && c.description == s.description && c.language == s.language
    ensures c.code == CardCode(s.code)
    ensures LineCount(s.code) <= 10 ==> c.code == s.code
    ensures !c.viewFullLink ==> c.code == s.code
  {
    Card("/snippet/" + s.id, s.title, s.description, s.description != "",
         s.tags, CardCode(s.code), s.language, LineCount(s.code) > 10)
  }

  /** What one file of the file view shows: Markdown or code, the text shown,
      and whether the "view full snippet" marker appears. */
  datatype FileView = FileView(markdown: bool, shown: string, marker: bool)

  /** `FileContent`: a Markdown file previews its first 20 lines, a code file
      its first 10 plus the marker text; outside preview the whole file. */
  function RenderFile(file: SnippetFile, preview: bool): (v: FileView)
    ensures v.markdown == IsMarkdownFile(file.language, file.filename)
    ensures !preview ==> v.shown == file.code && !v.marker
    ensures v.markdown ==> (v.marker <==> preview && LineCount(file.code) > 20)
    ensures !v.markdown ==> (v.marker <==> preview && LineCount(file.code) > 10)
    ensures preview && v.markdown ==> v.shown == FirstLines(file.code, 20)
    ensures preview && !v.markdown ==> v.shown == CardCode(file.code)
  {
    if IsMarkdownFile(file.language, file.filename) then
      FileView(true, if preview then FirstLines(file.code, 20) else file.code,
               preview && LineCount(file.code) > 20)
    else
      FileView(false, if preview then CardCode(file.code) else file.code,
               preview && LineCount(file.code) > 10)
  }

  /** In preview, a Markdown file shows its first 20 lines: all of it when it
      has at most 20 lines, otherwise a prefix that the code continues with a
      line break and the remaining lines. A code file shows what the card
      would show. */
  lemma RenderFilePreview(file: SnippetFile)
    ensures var v := RenderFile(file, true);
      v.markdown ==> v.shown <= file.code && (LineCount(file.code) <= 20 ==> v.shown == file.code)
    ensures var v := RenderFile(file, true);
      v.markdown && LineCount(file.code) > 20 ==>
        file.code == v.shown + "\n" + Join(Lines(file.code)[20..], "\n")
        && |Lines(v.shown)| == 20
    ensures var v := RenderFile(file, true);
      !v.markdown ==> v.shown == CardCode(file.code)
  {
    if IsMarkdownFile(file.language, file.filename) && LineCount(file.code) > 20 {
      FirstLinesLines(file.code, 20);
    }
  }

  /** Cutting after `n` lines, with more lines to follow, keeps exactly the
      first `n` lines. */
  lemma FirstLinesLines(code: string, n: nat)
    requires 1 <= n < LineCount(code)
    ensures Lines(FirstLines(code, n)) == Lines(code)[..n]
  {
    var first := Lines(code)[..n];
    assert forall i :: 0 <= i < |first| ==> first[i] in Lines(code);
    SplitJoin(first, '\n');
  }

  /** What the file list renders. `BrokenTab` is the active index pointing past
      the list, where the component reads an undefined file. */
  datatype FilesView =
    | NoFiles
    | SingleFile(content: FileView)
    | Tabbed(tabs: seq<string>, active: nat, content: FileView)
    | BrokenTab

  /** `SnippetFiles` with active tab `active`. */
  function RenderFiles(files: seq<SnippetFile>, preview: bool, active: nat): (v: FilesView)
    ensures |files| == 0 <==> v == NoFiles
    ensures |files| == 1 ==> v == SingleFile(RenderFile(files[0], preview))
    ensures |files| > 1 && active < |files| ==>
      v.Tabbed? && |v.tabs| == |files| && v.active == active
      && v.content == RenderFile(files[active], preview)
      && forall i :: 0 <= i < |files| ==> v.tabs[i] == files[i].filename
  {
    if |files| == 0 then NoFiles
    else if |files| == 1 then SingleFile(RenderFile(files[0], preview))
    else if active < |files| then
      Tabbed(seq(|files|, i requires 0 <= i < |files| => files[i].filename), active,
             RenderFile(files[active], preview))
    else BrokenTab
  }

  /** The active tab after a series of tab clicks: it starts at 0 and each
      click selects the index of the tab clicked. */
  function ActiveTab(clicks: seq<nat>): nat {
    if |clicks| == 0 then 0 else clicks[|clicks| - 1]
  }

  /** For a fixed file list, clicks only ever land on rendered tabs, so the
      active index always names an existing file and the view is never
      broken. The active index is component state that survives a change of
      the file list, which this lemma does not cover. */
  lemma TabsNeverBreak(files: seq<SnippetFile>, preview: bool, clicks: seq<nat>)
    requires forall i :: 0 <= i < |clicks| ==> clicks[i] < |files|
    ensures |files| > 0 ==> ActiveTab(clicks) < |files|
    ensures RenderFiles(files, preview, ActiveTab(clicks)) != BrokenTab
  {
  }
}

=== FILE: repository.dfy ===
/** The snippet repository (src/lib/github.ts): each snippet is a Markdown
    file `<dir>/<id>.md` whose front matter holds the metadata and whose body
    is the code. Listing, reading, creating, updating and deleting go through
    the contents API of module Store. The clock (`now`), the random id of a
    new snippet and the sha the server gives a new blob are parameters. */
module Repository {
  import opened Base
  import opened Strings
  import opened Snippets
  import opened Store
  import opened Sorting

  const Extension := ".md"

  /** `filename.replace('.md', '')`: the first `.md` removed, wherever it is. */
  function IdOfFilename(filename: string): (id: string)
    ensures !Contains(filename, Extension) ==> id == filename
    ensures Contains(filename, Extension) ==> |id| == |filename| - |Extension|
  {
    ReplaceFirst(filename, Extension, "")
  }

  /** The file that holds snippet `id`. */
  function SnippetPath(dir: string, id: string): string {
    Child(dir, id + Extension)
  }

  /** In `a + t` with `t` starting with `.md`, no `.md` starts inside `a`
      when `a` has none of its own: no suffix of `a` starts `.md`'s tail. */
  lemma FirstExtensionAfter(a: string, t: string)
    requires !Contains(a, Extension)
    requires |t| >= 3 && t[..3] == Extension
    ensures IndexOf(a + t, Extension) == Some(|a|)
  {
    var s := a + t;
    assert OccursAt(s, Extension, |a|) by {
      assert s[|a|..|a| + 3] == t[..3];
    }
    forall k | 0 <= k < |a|
      ensures !OccursAt(s, Extension, k)
    {
      if k + 3 <= |a| {
        assert a[k..k + 3] == s[k..k + 3];
        assert !OccursAt(a, Extension, k);
      } else if k + 3 <= |s| {
        assert s[k..k + 3][|a| - k] == s[|a|] == '.';
      }
    }
  }

  /** Round trip of the file name: an id without `.md` in it is recovered
      from its filename. */
  lemma IdRoundTrip(id: string)
    requires !Contains(id, Extension)
    ensures IdOfFilename(id + Extension) == id
  {
    FirstExtensionAfter(id, Extension);
  }

  /** An id that does contain `.md` comes back changed: the first `.md` goes,
      and the one the filename ends in stays. */
  lemma IdRoundTripFails(a: string, b: string)
    requires !Contains(a, Extension)
    ensures IdOfFilename(a + Extension + b + Extension) == a + b + Extension
  {
    var t := Extension + b + Extension;
    assert a + Extension + b + Extension == a + t;
    assert IdOfFilename(a + t) == a + (b + Extension) by {
      FirstExtensionAfter(a, t);
      IdOfFilenameAt(a + t, |a|);
      assert (a + t)[..|a|] == a;
      assert (a + t)[|a| + 3..] == b + Extension;
    }
    assert a + (b + Extension) == a + b + Extension;
  }

  /** The id drops the first `.md`, found at `i`. */
  lemma IdOfFilenameAt(filename: string, i: nat)
    requires IndexOf(filename, Extension) == Some(i)
    ensures i + |Extension| <= |filename|
    ensures IdOfFilename(filename) == filename[..i] + filename[i + |Extension|..]
  {
    ReplaceFirstAt(filename, Extension, "", i);
    assert filename[..i] + "" == filename[..i];
  }

  /** The snippet `getSnippetContent` builds from a file named `filename`:
      falsy front-matter values take their defaults, timestamps default to
      `now`, the body is trimmed, and only an explicit `false` makes it private. */
  function ReadSnippet(filename: string, front: FrontMatter, body: string, now: int): (s: Snippet)
    ensures s.id == IdOfFilename(filename) && s.filename == filename
    ensures s.title == (if Truthy(front.title) then front.title.value else s.id)
    ensures s.description == (if Truthy(front.description) then front.description.value else "")
    ensures s.language == (if Truthy(front.language) then front.language.value else "text")
    ensures front.createdAt.None? ==> s.createdAt == now
    ensures front.updatedAt.None? ==> s.updatedAt == now
    ensures front.createdAt.Some? ==> s.createdAt == front.createdAt.value
    ensures front.updatedAt.Some? ==> s.updatedAt == front.updatedAt.value
    ensures front.tags.None? ==> s.tags == []
    ensures front.tags.Some? ==> s.tags == front.tags.value
    ensures s.code == Trim(body) && IsTrimmed(s.code)
    ensures s.isPublic <==> front.isPublic != Some(false)
  {
    var id := IdOfFilename(filename);
    Snippet(
      id,
      OrElse(front.title, id),
      OrElse(front.description, ""),
      OrElse(front.language, "text"),
      Trim(body),
      filename,
      front.createdAt.GetOr(now),
      front.updatedAt.GetOr(now),
      front.tags.GetOr([]),
      front.isPublic != Some(false))
  }

  /** `getSnippetContent(path)`: a snippet exactly when the path holds a
      regular file whose front matter parses; null for a directory, a
      symlink or submodule, a missing path, a failed call or unparseable text. */
  function GetSnippetContent(remote: Remote, faults: Faults, path: string, now: int): (r: Option<Snippet>)
    ensures r.Some? <==>
      && path !in faults.failingReads && path in remote.files
      && remote.files[path].regular && remote.files[path].content.Document?
    ensures r.Some? ==>
      r.value == ReadSnippet(LastPiece(path, '/'), remote.files[path].content.front,
                             remote.files[path].content.body, now)
  {
    match GetContent(remote, faults, path)
    case Failure(_) => None
    case Success(node) =>
      match node
      case DirNode(_) => None
      case FileNode(name, _, blob) =>
        if !blob.regular then None
        else match blob.content
          case Unparseable => None
          case Document(front, body) => Some(ReadSnippet(name, front, body, now))
  }

  /** The entries `listSnippets` reads: regular files whose name ends in `.md`. */
  predicate IsCandidate(e: Entry) {
    e.kind == FileEntry && EndsWith(e.name, Extension)
  }

  /** The snippets a listing of `dir` can produce: one per candidate entry
      that reads as a snippet. */
  predicate Listed(remote: Remote, faults: Faults, dir: string, now: int, s: Snippet) {
    exists e :: e in Listing(remote.files, dir) && IsCandidate(e)
      && GetSnippetContent(remote, faults, e.path, now) == Some(s)
  }

  /** Whether `getContent(dir)` answers with a directory array. */
  predicate ListsDirectory(remote: Remote, faults: Faults, dir: string) {
    dir !in faults.failingReads && dir !in remote.files && IsDirectory(remote.files, dir)
  }

  /** A candidate entry's snippet is named after the entry. */
  lemma CandidateFilename(remote: Remote, faults: Faults, dir: string, now: int, e: Entry)
    requires e in Listing(remote.files, dir) && IsCandidate(e)
    requires GetSnippetContent(remote, faults, e.path, now).Some?
    ensures GetSnippetContent(remote, faults, e.path, now).value.filename == e.name
  {
    assert e.path == dir + ['/'] + e.name;
    LastPieceOf(dir, '/', e.name);
  }

  /** The loop of `listSnippets`: reads every candidate entry and keeps what
      reads as a snippet. Entries are visited in no particular order. */
  method CollectSnippets(entries: set<Entry>, read: Entry -> Option<Snippet>) returns (found: seq<Snippet>)
    requires forall e1, e2 ::
      (e1 in entries && e2 in entries && IsCandidate(e1) && IsCandidate(e2) && e1.name == e2.name) ==> e1 == e2
    requires forall e :: e in entries && IsCandidate(e) && read(e).Some? ==> read(e).value.filename == e.name
    ensures forall s :: s in found <==> exists e :: e in entries && IsCandidate(e) && read(e) == Some(s)
    ensures DistinctFilenames(found)
  {
    var todo := entries;
    found := [];
    ghost var sources: seq<Entry> := [];
    while todo != {}
      invariant todo <= entries
      invariant |sources| == |found|
      invariant forall i :: 0 <= i < |sources| ==>
        sources[i] in entries && sources[i] !in todo && IsCandidate(sources[i])
        && read(sources[i]) == Some(found[i])
      invariant forall e :: e in entries && e !in todo && IsCandidate(e) && read(e).Some? ==> read(e).value in found
      invariant DistinctFilenames(found)
      decreases |todo|
    {
      var e :| e in todo;
      if IsCandidate(e) {
        var content := read(e);
        if content.Some? {
          assert forall i :: 0 <= i < |found| ==> found[i].filename != e.name by {
            forall i | 0 <= i < |found|
              ensures found[i].filename != e.name
            {
              assert sources[i] != e;
            }
          }
          AppendDistinct(found, content.value);
          found := found + [content.value];
          sources := sources + [e];
        }
      }
      todo := todo - {e};
    }
    forall s | s in found
      ensures exists e :: e in entries && IsCandidate(e) && read(e) == Some(s)
    {
      var i :| 0 <= i < |found| && found[i] == s;
      assert sources[i] in entries && read(sources[i]) == Some(s);
    }
  }

  /** `listSnippets()`: every `.md` file of the directory that reads as a
      snippet, each once, newest first; empty when the directory cannot be
      listed (a failed call, a missing path, or a file at that path). */
  method ListSnippets(remote: Remote, faults: Faults, dir: string, now: int) returns (r: seq<Snippet>)
    ensures NewestFirst(r)
    ensures !ListsDirectory(remote, faults, dir) ==> r == []
    ensures ListsDirectory(remote, faults, dir) ==>
      forall s :: s in r <==> Listed(remote, faults, dir, now, s)
    ensures forall s :: multiset(r)[s] <= 1
  {
    var response := GetContent(remote, faults, dir);
    if response.Failure? || response.value.FileNode? {
      return [];
    }
    var entries := response.value.entries;
    assert entries == Listing(remote.files, dir);
    var read := (e: Entry) => GetSnippetContent(remote, faults, e.path, now);
    forall e1, e2 | e1 in entries && e2 in entries && IsCandidate(e1) && IsCandidate(e2) && e1.name == e2.name
      ensures e1 == e2
    {
      if e1 != e2 {
        NamesDetermineEntries(remote, dir, e1, e2);
      }
    }
    forall e | e in entries && IsCandidate(e) && read(e).Some?
      ensures read(e).value.filename == e.name
    {
      CandidateFilename(remote, faults, dir, now, e);
    }
    var found := CollectSnippets(entries, read);
    r := SortNewestFirst(found);
    SortedMembers(found);
  }

  /** A snippet whose filename is new keeps the filenames distinct. */
  lemma AppendDistinct(found: seq<Snippet>, x: Snippet)
    requires DistinctFilenames(found)
    requires forall i :: 0 <= i < |found| ==> found[i].filename != x.filename
    ensures DistinctFilenames(found + [x])
  {
  }

  /** Two candidate entries of one listing with the same name are the same entry. */
  lemma NamesDetermineEntries(remote: Remote, dir: string, e1: Entry, e2: Entry)
    requires e1 in Listing(remote.files, dir) && IsCandidate(e1)
    requires e2 in Listing(remote.files, dir) && IsCandidate(e2)
    requires e1 != e2
    ensures e1.name != e2.name
  {
  }

  /** The front matter written for a snippet. */
  function FrontOf(input: SnippetInput, createdAt: int, updatedAt: int): FrontMatter {
    FrontMatter(Some(input.title), Some(input.description), Some(input.language),
                Some(createdAt), Some(updatedAt), Some(input.tags), Some(input.isPublic))
  }

  /** The snippet returned for `input` stored as `id` with the given timestamps. */
  function StoredSnippet(id: string, input: SnippetInput, createdAt: int, updatedAt: int): Snippet {
    Snippet(id, input.title, input.description, input.language, input.code, id + Extension,
            createdAt, updatedAt, input.tags, input.isPublic)
  }

  /** The result of a write: the value returned and the branch afterwards. */
  datatype Outcome<T> = Outcome(result: T, remote: Remote)

  /** `createSnippet(input)` under the fresh `id`: the file `<dir>/<id>.md`
      is created with both timestamps `now` and the commit message
      `Create snippet: <title>`; if the write fails, null and nothing changes. */
  function CreateSnippet(remote: Remote, faults: Faults, dir: string, input: SnippetInput,
                         id: string, now: int, newSha: string): (o: Outcome<Option<Snippet>>)
    ensures var path := SnippetPath(dir, id);
      o.result.Some? <==>
        path !in faults.failingWrites && path !in remote.files && !IsDirectory(remote.files, path)
        && !UnderFile(remote.files, path)
    ensures o.result.Some? ==>
      && o.result.value == StoredSnippet(id, input, now, now)
      && o.remote.files == remote.files[SnippetPath(dir, id) :=
           Blob(true, Document(FrontOf(input, now, now), input.code), newSha)]
      && o.remote.log == remote.log + [Commit("Create snippet: " + input.title, SnippetPath(dir, id))]
    ensures o.result.None? ==> o.remote == remote
  {
    var path := SnippetPath(dir, id);
    match PutFile(remote, faults, path, Document(FrontOf(input, now, now), input.code),
                  "Create snippet: " + input.title, None, newSha)
    case Failure(_) => Outcome(None, remote)
    case Success(after) => Outcome(Some(StoredSnippet(id, input, now, now)), after)
  }

  /** What `updateSnippet` learns from its read: the sha to replace and the
      creation time to keep. */
  datatype UpdatePlan = UpdatePlan(sha: string, createdAt: int)

  /** The read half of `updateSnippet`: it proceeds only for a regular file
      whose front matter parses, keeping its `createdAt` or, when that is
      missing, taking `now`. */
  function PlanUpdate(remote: Remote, faults: Faults, path: string, now: int): (p: Option<UpdatePlan>)
    ensures p.Some? <==>
      && path !in faults.failingReads && path in remote.files
      && remote.files[path].regular && remote.files[path].content.Document?
    ensures p.Some? ==>
      && p.value.sha == remote.files[path].sha
      && p.value.createdAt == remote.files[path].content.front.createdAt.GetOr(now)
  {
    match GetContent(remote, faults, path)
    case Failure(_) => None
    case Success(node) =>
      match node
      case DirNode(_) => None
      case FileNode(_, _, blob) =>
        if !blob.regular then None
        else match blob.content
          case Unparseable => None
          case Document(front, _) => Some(UpdatePlan(blob.sha, front.createdAt.GetOr(now)))
  }

  /** The write half of `updateSnippet`: replaces the file read, under the sha
      read, with `updatedAt` set to `now` and the commit message
      `Update snippet: <title>`. */
  function CommitUpdate(remote: Remote, faults: Faults, dir: string, id: string, input: SnippetInput,
                        now: int, newSha: string, plan: Option<UpdatePlan>): (o: Outcome<Option<Snippet>>)
    ensures o.result.None? ==> o.remote == remote
    ensures o.result.Some? ==>
      && plan.Some?
      && o.result.value == StoredSnippet(id, input, plan.value.createdAt, now)
      && o.remote.files == remote.files[SnippetPath(dir, id) :=
           Blob(true, Document(FrontOf(input, plan.value.createdAt, now), input.code), newSha)]
      && o.remote.log == remote.log + [Commit("Update snippet: " + input.title, SnippetPath(dir, id))]
  {
    match plan
    case None => Outcome(None, remote)
    case Some(p) =>
      var path := SnippetPath(dir, id);
      match PutFile(remote, faults, path, Document(FrontOf(input, p.createdAt, now), input.code),
                    "Update snippet: " + input.title, Some(p.sha), newSha)
      case Failure(_) => Outcome(None, remote)
      case Success(after) => Outcome(Some(StoredSnippet(id, input, p.createdAt, now)), after)
  }

  /** `updateSnippet(id, input)`: read, then write under the sha read. It
      succeeds exactly when the read finds a readable snippet file and the
      write goes through, and it keeps the stored creation time. */
  function UpdateSnippet(remote: Remote, faults: Faults, dir: string, id: string, input: SnippetInput,
                         now: int, newSha: string): (o: Outcome<Option<Snippet>>)
    ensures var path := SnippetPath(dir, id);
      o.result.Some? <==>
        && GetSnippetContent(remote, faults, path, now).Some?
        && path !in faults.failingWrites && !IsDirectory(remote.files, path)
        && !UnderFile(remote.files, path)
    ensures var path := SnippetPath(dir, id);
      o.result.Some? ==>
        && o.result.value.createdAt == remote.files[path].content.front.createdAt.GetOr(now)
        && o.result.value.updatedAt == now
        && o.result.value.id == id
    ensures o.result.None? ==> o.remote == remote
  {
    var path := SnippetPath(dir, id);
    var plan := PlanUpdate(remote, faults, path, now);
    CommitUpdate(remote, faults, dir, id, input, now, newSha, plan)
  }

  /** `deleteSnippet(id)`: reads the path, refuses a directory, and deletes
      the file under the sha read with the commit message
      `Delete snippet: <id>`; false and nothing changes when a call fails. */
  function DeleteSnippet(remote: Remote, faults: Faults, dir: string, id: string): (o: Outcome<bool>)
    ensures var path := SnippetPath(dir, id);
      o.result <==> path !in faults.failingReads && path in remote.files && path !in faults.failingWrites
    ensures o.result ==>
      && o.remote.files == remote.files - {SnippetPath(dir, id)}
      && o.remote.log == remote.log + [Commit("Delete snippet: " + id, SnippetPath(dir, id))]
    ensures !o.result ==> o.remote == remote
  {
    var path := SnippetPath(dir, id);
    match GetContent(remote, faults, path)
    case Failure(_) => Outcome(false, remote)
    case Success(node) =>
      match node
      case DirNode(_) => Outcome(false, remote)
      case FileNode(_, _, blob) =>
        match DeleteFile(remote, faults, path, "Delete snippet: " + id, blob.sha)
        case Failure(_) => Outcome(false, remote)
        case Success(after) => Outcome(true, after)
  }

  /** The snippet a freshly written file reads back as. */
  function ReadBack(id: string, input: SnippetInput, createdAt: int, updatedAt: int): Snippet {
    Snippet(id, if input.title != "" then input.title else id, input.description,
            if input.language != "" then input.language else "text", Trim(input.code),
            id + Extension, createdAt, updatedAt, input.tags, input.isPublic)
  }

  /** Reading the file a write just made gives back what was written, with the
      read defaults applied: an empty title becomes the id, an empty language
      `text`, and the code is trimmed. */
  lemma {:induction false} ReadWritten(remote: Remote, faults: Faults, dir: string, id: string,
                                       input: SnippetInput, createdAt: int, updatedAt: int,
                                       sha: string, later: int)
    requires '/' !in id && !Contains(id, Extension)
    requires SnippetPath(dir, id) !in faults.failingReads
    requires SnippetPath(dir, id) in remote.files
    requires remote.files[SnippetPath(dir, id)]
      == Blob(true, Document(FrontOf(input, createdAt, updatedAt), input.code), sha)
    ensures GetSnippetContent(remote, faults, SnippetPath(dir, id), later)
      == Some(ReadBack(id, input, createdAt, updatedAt))
  {
    var path := SnippetPath(dir, id);
    assert path == dir + ['/'] + (id + Extension);
    LastPieceOf(dir, '/', id + Extension);
    ReadFrontOf(id, input, createdAt, updatedAt, later);
  }

  /** The front matter written for `input` reads back as `ReadBack`. */
  lemma ReadFrontOf(id: string, input: SnippetInput, createdAt: int, updatedAt: int, later: int)
    requires !Contains(id, Extension)
    ensures ReadSnippet(id + Extension, FrontOf(input, createdAt, updatedAt), input.code, later)
      == ReadBack(id, input, createdAt, updatedAt)
  {
    IdRoundTrip(id);
  }

  /** Create then read: the new snippet reads back as created, up to the
      read defaults. */
  lemma CreateThenRead(remote: Remote, faults: Faults, dir: string, input: SnippetInput,
                       id: string, now: int, newSha: string, later: int)
    requires '/' !in id && !Contains(id, Extension)
    requires SnippetPath(dir, id) !in faults.failingReads
    ensures var o := CreateSnippet(remote, faults, dir, input, id, now, newSha);
      o.result.Some? ==>
        GetSnippetContent(o.remote, faults, SnippetPath(dir, id), later) == Some(ReadBack(id, input, now, now))
  {
    var o := CreateSnippet(remote, faults, dir, input, id, now, newSha);
    if o.result.Some? {
      ReadWritten(o.remote, faults, dir, id, input, now, now, newSha, later);
    }
  }

  /** Create then list: the new snippet is among those a listing of the
      directory returns, provided the directory path is not itself a file and
      can be read. */
  lemma CreateThenListed(remote: Remote, faults: Faults, dir: string, input: SnippetInput,
                         id: string, now: int, newSha: string, later: int)
    requires '/' !in id && !Contains(id, Extension)
    requires SnippetPath(dir, id) !in faults.failingReads
    requires dir !in faults.failingReads && dir !in remote.files
    ensures var o := CreateSnippet(remote, faults, dir, input, id, now, newSha);
      o.result.Some? ==>
        && ListsDirectory(o.remote, faults, dir)
        && Listed(o.remote, faults, dir, later, ReadBack(id, input, now, now))
  {
    var o := CreateSnippet(remote, faults, dir, input, id, now, newSha);
    if o.result.Some? {
      var name := id + Extension;
      WrittenFileListed(remote, faults, dir, name, Document(FrontOf(input, now, now), input.code),
                        "Create snippet: " + input.title, newSha);
      ReadWritten(o.remote, faults, dir, id, input, now, now, newSha, later);
      var e := Entry(name, Child(dir, name), FileEntry);
      assert IsCandidate(e) by {
        assert name[|name| - 3..] == Extension;
      }
      assert dir != SnippetPath(dir, id) by {
        assert |SnippetPath(dir, id)| > |dir|;
      }
      assert e in Listing(o.remote.files, dir)
        && GetSnippetContent(o.remote, faults, e.path, later) == Some(ReadBack(id, input, now, now));
    }
  }

  /** Update then read: the snippet reads back with the new fields, its
      original creation time (or `now` when it had none) and `updatedAt = now`. */
  lemma UpdateThenRead(remote: Remote, faults: Faults, dir: string, id: string, input: SnippetInput,
                       now: int, newSha: string, later: int)
    requires '/' !in id && !Contains(id, Extension)
    ensures var path := SnippetPath(dir, id);
      var o := UpdateSnippet(remote, faults, dir, id, input, now, newSha);
      o.result.Some? ==>
        GetSnippetContent(o.remote, faults, path, later)
          == Some(ReadBack(id, input, remote.files[path].content.front.createdAt.GetOr(now), now))
  {
    var path := SnippetPath(dir, id);
    var o := UpdateSnippet(remote, faults, dir, id, input, now, newSha);
    if o.result.Some? {
      var createdAt := remote.files[path].content.front.createdAt.GetOr(now);
      ReadWritten(o.remote, faults, dir, id, input, createdAt, now, newSha, later);
    }
  }

  /** Lost updates are refused: of two updates planned against the same
      state, once the first is written and has changed the file's sha (on
      GitHub: once it changed the file's content) the second fails and
      changes nothing. */
  lemma ConcurrentUpdateRejected(remote: Remote, faults: Faults, dir: string, id: string,
                                 first: SnippetInput, second: SnippetInput,
                                 now1: int, now2: int, newSha1: string, newSha2: string)
    requires var path := SnippetPath(dir, id);
      path in remote.files && newSha1 != remote.files[path].sha
    ensures var path := SnippetPath(dir, id);
      var plan1 := PlanUpdate(remote, faults, path, now1);
      var plan2 := PlanUpdate(remote, faults, path, now2);
      var o1 := CommitUpdate(remote, faults, dir, id, first, now1, newSha1, plan1);
      o1.result.Some? ==>
        CommitUpdate(o1.remote, faults, dir, id, second, now2, newSha2, plan2) == Outcome(None, o1.remote)
  {
  }

  /** Delete then read: a deleted snippet no longer reads, and only its file
      is gone. */
  lemma DeleteThenRead(remote: Remote, faults: Faults, dir: string, id: string, later: int)
    ensures var o := DeleteSnippet(remote, faults, dir, id);
      o.result ==>
        && GetSnippetContent(o.remote, faults, SnippetPath(dir, id), later).None?
        && forall p :: p in remote.files && p != SnippetPath(dir, id) ==>
             p in o.remote.files && o.remote.files[p] == remote.files[p]
  {
  }
}

=== FILE: routes.dfy ===
/** The two snippet API routes: `POST /api/snippets/new`
    (src/app/api/snippets/new/route.ts) and `GET /api/snippets`
    (src/app/api/snippets/route.ts). The session lookup, the request body and
    the outcome of the repository call are inputs; each route is the decision
    it makes from them. */
module Routes {
  import opened Base
  import opened Seqs
  import opened Strings
  import opened Config
  import opened Snippets
  import Editor

  /** What `getServerSession` yields: a failure (it throws), no session, or the
      GitHub login and access token of a signed-in user. */
  datatype SessionLookup =
    | SessionFailed
    | NoSession
    | SignedIn(login: Option<string>, accessToken: Option<string>)

  /** The JSON body of a create request after `request.json()`: malformed text
      throws; a missing field is `None`. The route as written reads `title`,
      `description`, `files`, `tags` and `isPublic`; `language` and `code`
      are what the editor sends and what `createSnippet` stores. */
  datatype Body =
    | Malformed
    | Fields(title: Option<string>, description: Option<string>, files: Option<seq<SnippetFile>>,
             tags: Option<seq<string>>, isPublic: Option<bool>,
             language: Option<string>, code: Option<string>)

  /** What the route hands to the repository's create call. */
  datatype CreateRequest = CreateRequest(
    title: string, description: string, files: seq<SnippetFile>, tags: seq<string>, isPublic: bool)

  /** What the create call did: returned a snippet, returned null, or threw. */
  datatype CreateOutcome = Created(snippet: Snippet) | CreateReturnedNull | CreateThrew

  datatype Payload = ErrorMessage(error: string) | OneSnippet(snippet: Snippet) | SnippetList(snippets: seq<Snippet>)

  datatype Response = Response(status: int, payload: Payload)

  const Unauthorized := Response(401, ErrorMessage("Unauthorized"))
  const Forbidden := Response(403, ErrorMessage("Forbidden"))
  const MissingFields := Response(400, ErrorMessage("Title and at least one file are required"))
  const CreateFailed := Response(500, ErrorMessage("Failed to create snippet"))
  const FetchFailed := Response(500, ErrorMessage("Failed to fetch snippets"))

  /** The session carries both a login and an access token. */
  predicate HasCredentials(session: SessionLookup) {
    session.SignedIn? && Truthy(session.login) && Truthy(session.accessToken)
  }

  /** The body names a title and at least one file. */
  predicate ValidBody(body: Body) {
    body.Fields? && Truthy(body.title) && body.files.Some? && |body.files.value| > 0
  }

  /** The request built from a valid body: description `""`, tags `[]` and
      public unless `isPublic` is explicitly `false`. */
  function CreationRequest(body: Body): (req: CreateRequest)
    requires ValidBody(body)
    ensures req.title == body.title.value && req.files == body.files.value && |req.files| > 0
    ensures !Truthy(body.description) ==> req.description == ""
    ensures Truthy(body.description) ==> req.description == body.description.value
    ensures body.tags.None? ==> req.tags == []
    ensures body.tags.Some? ==> req.tags == body.tags.value
    ensures req.isPublic <==> body.isPublic != Some(false)
  {
    CreateRequest(body.title.value, OrElse(body.description, ""), body.files.value,
                  body.tags.GetOr([]), body.isPublic != Some(false))
  }

  /** `POST /api/snippets/new`. The checks run in order: credentials (401),
      allow-list (403), body (400), creation (500 on null or a throw); a
      failing session lookup or a malformed body also ends in 500. */
  function PostNew(session: SessionLookup, allowed: seq<string>, body: Body,
                   outcome: CreateOutcome): (r: Response)
    ensures r.status == 200 <==>
      HasCredentials(session) && IsAuthorizedUser(session.login, allowed)
      && ValidBody(body) && outcome.Created?
    ensures r.status == 200 ==> r.payload == OneSnippet(outcome.snippet)
    ensures r == Unauthorized <==> session != SessionFailed && !HasCredentials(session)
    ensures r == Forbidden <==> HasCredentials(session) && !IsAuthorizedUser(session.login, allowed)
    ensures r == MissingFields <==>
      HasCredentials(session) && IsAuthorizedUser(session.login, allowed)
      && body.Fields? && !ValidBody(body)
    ensures r == CreateFailed <==>
      session.SessionFailed?
      || (HasCredentials(session) && IsAuthorizedUser(session.login, allowed)
          && (body.Malformed? || (ValidBody(body) && !outcome.Created?)))
    ensures r.status in {200, 400, 401, 403, 500}
  {
    if session.SessionFailed? then CreateFailed
    else if !HasCredentials(session) then Unauthorized
    else if !IsAuthorizedUser(session.login, allowed) then Forbidden
    else if body.Malformed? then CreateFailed
    else if !ValidBody(body) then MissingFields
    else match outcome
      case Created(s) => Response(200, OneSnippet(s))
      case _ => CreateFailed
  }

  /** Missing credentials decide the answer before the body is read or the
      repository is called: whatever they are, the answer is 401. */
  lemma CredentialsCheckedFirst(session: SessionLookup, allowed: seq<string>,
                                body1: Body, body2: Body, o1: CreateOutcome, o2: CreateOutcome)
    requires session != SessionFailed && !HasCredentials(session)
    ensures PostNew(session, allowed, body1, o1) == PostNew(session, allowed, body2, o2) == Unauthorized
  {
  }

  /** The body is judged only once the caller is authorized: an unauthorized
      caller gets 401 or 403 whatever the body. */
  lemma BodyCheckedAfterAuthorization(session: SessionLookup, allowed: seq<string>, body: Body,
                                      outcome: CreateOutcome)
    requires session != SessionFailed
    requires !HasCredentials(session) || !IsAuthorizedUser(session.login, allowed)
    ensures PostNew(session, allowed, body, outcome).status in {401, 403}
  {
  }

  /** With the allow-list read from a raw variable, a signed-in user with a
      token is refused with 403 exactly when the variable has a non-empty
      segment and the login is none of its segments. */
  lemma ForbiddenAgainstRawList(login: string, token: string, raw: string, body: Body, outcome: CreateOutcome)
    requires login != "" && token != ""
    ensures PostNew(SignedIn(Some(login), Some(token)), ParseAllowList(raw), body, outcome) == Forbidden
      <==> !((forall p :: p in Split(raw, ',') ==> p == "") || login in Split(raw, ','))
  {
    AuthorizedAgainstRawList(login, raw);
  }

  /** The body the route reads from the editor's create request: the editor
      sends title, description, language, code, tags and visibility, and no
      `files`. */
  function EditorBody(p: Editor.Payload): (body: Body)
    ensures body.Fields? && body.files.None?
    ensures body.title == Some(p.title) && body.code == Some(p.code) && body.language == Some(p.language)
  {
    Fields(Some(p.title), Some(p.description), None, Some(p.tags), Some(p.isPublic),
           Some(p.language), Some(p.code))
  }

  /** As written, every create request the editor sends is refused: a
      signed-in, allowed user who filled in title and code gets 400, whatever
      the repository would have done. */
  lemma EditorCreateRefused(form: Editor.Form, snippet: Option<Snippet>, session: SessionLookup,
                            allowed: seq<string>, outcome: CreateOutcome)
    requires Editor.Submit(form, Editor.CreateMode, snippet).Request?
    requires HasCredentials(session) && IsAuthorizedUser(session.login, allowed)
    ensures var p := Editor.Submit(form, Editor.CreateMode, snippet).payload;
      PostNew(session, allowed, EditorBody(p), outcome) == MissingFields
  {
  }

  const MissingTitleOrCode := Response(400, ErrorMessage("Title and code are required"))

  /** The body names a title and code, the fields `createSnippet` stores. */
  predicate ValidCreateBody(body: Body) {
    body.Fields? && Truthy(body.title) && Truthy(body.code)
  }

  /** The snippet input built from a valid body: what is present passes
      through; a missing description or language is `""`, missing tags are
      `[]`, and it is public unless `isPublic` is explicitly `false`. */
  function CreationInput(body: Body): (input: SnippetInput)
    requires ValidCreateBody(body)
    ensures input.title == body.title.value && input.code == body.code.value
    ensures input.description == (if Truthy(body.description) then body.description.value else "")
    ensures input.language == (if Truthy(body.language) then body.language.value else "")
    ensures body.tags.Some? ==> input.tags == body.tags.value
    ensures body.tags.None? ==> input.tags == []
    ensures input.isPublic <==> body.isPublic != Some(false)
  {
    SnippetInput(body.title.value, OrElse(body.description, ""), OrElse(body.language, ""),
                 body.code.value, body.tags.GetOr([]), body.isPublic != Some(false))
  }

  /** The create route as evidently intended: the same checks in the same
      order as `PostNew`, but the body must name a title and code, the
      fields the editor sends and `createSnippet` stores. */
  function PostCreate(session: SessionLookup, allowed: seq<string>, body: Body,
                      outcome: CreateOutcome): (r: Response)
    ensures r.status == 200 <==>
      HasCredentials(session) && IsAuthorizedUser(session.login, allowed)
      && ValidCreateBody(body) && outcome.Created?
    ensures r.status == 200 ==> r.payload == OneSnippet(outcome.snippet)
    ensures r == Unauthorized <==> session != SessionFailed && !HasCredentials(session)
    ensures r == Forbidden <==> HasCredentials(session) && !IsAuthorizedUser(session.login, allowed)
    ensures r == MissingTitleOrCode <==>
      HasCredentials(session) && IsAuthorizedUser(session.login, allowed)
      && body.Fields? && !ValidCreateBody(body)
    ensures r == CreateFailed <==>
      session.SessionFailed?
      || (HasCredentials(session) && IsAuthorizedUser(session.login, allowed)
          && (body.Malformed? || (ValidCreateBody(body) && !outcome.Created?)))
    ensures r.status in {200, 400, 401, 403, 500}
  {
    if session.SessionFailed? then CreateFailed
    else if !HasCredentials(session) then Unauthorized
    else if !IsAuthorizedUser(session.login, allowed) then Forbidden
    else if body.Malformed? then CreateFailed
    else if !ValidCreateBody(body) then MissingTitleOrCode
    else match outcome
      case Created(s) => Response(200, OneSnippet(s))
      case _ => CreateFailed
  }

  /** With the corrected route, a payload with a title and code from an
      allowed session is accepted and reaches `createSnippet` with exactly
      its fields. */
  lemma PayloadAccepted(p: Editor.Payload, session: SessionLookup, allowed: seq<string>, created: Snippet)
    requires p.title != "" && p.code != ""
    requires HasCredentials(session) && IsAuthorizedUser(session.login, allowed)
    ensures ValidCreateBody(EditorBody(p))
    ensures CreationInput(EditorBody(p)) == SnippetInput(p.title, p.description, p.language, p.code, p.tags, p.isPublic)
    ensures PostCreate(session, allowed, EditorBody(p), Created(created)) == Response(200, OneSnippet(created))
  {
    var body := EditorBody(p);
    assert ValidCreateBody(body);
    var input := CreationInput(body);
    assert input.description == p.description && input.language == p.language;
  }

  /** With the corrected route, every create request the editor sends from an
      allowed session is accepted, reaches `createSnippet` with exactly the
      editor's fields, and answers with the created snippet. */
  lemma EditorCreateAccepted(form: Editor.Form, snippet: Option<Snippet>, session: SessionLookup,
                             allowed: seq<string>, created: Snippet)
    requires Editor.Submit(form, Editor.CreateMode, snippet).Request?
    requires HasCredentials(session) && IsAuthorizedUser(session.login, allowed)
    ensures var p := Editor.Submit(form, Editor.CreateMode, snippet).payload;
      && ValidCreateBody(EditorBody(p))
      && CreationInput(EditorBody(p)) == SnippetInput(p.title, p.description, p.language, p.code, p.tags, p.isPublic)
      && PostCreate(session, allowed, EditorBody(p), Created(created)) == Response(200, OneSnippet(created))
  {
    PayloadAccepted(Editor.Submit(form, Editor.CreateMode, snippet).payload, session, allowed, created);
  }

  /** Whether the caller of `GET /api/snippets` sees private snippets. */
  predicate SeesPrivate(session: SessionLookup, allowed: seq<string>) {
    session.SignedIn? && IsAuthorizedUser(session.login, allowed)
  }

  /** `GET /api/snippets` given the listing the repository returned: an
      authorized caller gets it unchanged, anyone else its public snippets in
      their order; a failing session lookup gives 500. */
  function GetSnippets(session: SessionLookup, allowed: seq<string>, listing: seq<Snippet>): (r: Response)
    ensures session.SessionFailed? <==> r == FetchFailed
    ensures !session.SessionFailed? ==> r.status == 200 && r.payload.SnippetList?
    ensures SeesPrivate(session, allowed) ==> r.payload == SnippetList(listing)
    ensures !session.SessionFailed? && !SeesPrivate(session, allowed) ==>
      var shown := r.payload.snippets;
      && IsSubsequence(shown, listing)
      && (forall i :: 0 <= i < |shown| ==> shown[i].isPublic)
      && (forall i :: 0 <= i < |listing| && listing[i].isPublic ==> listing[i] in shown)
  {
    if session.SessionFailed? then FetchFailed
    else if SeesPrivate(session, allowed) then Response(200, SnippetList(listing))
    else Response(200, SnippetList(Filter(listing, (s: Snippet) => s.isPublic)))
  }

  /** Anonymous callers never see a private snippet. */
  lemma AnonymousSeesOnlyPublic(allowed: seq<string>, listing: seq<Snippet>, s: Snippet)
    requires s in GetSnippets(NoSession, allowed, listing).payload.snippets
    ensures s.isPublic && s in listing
  {
    var shown := GetSnippets(NoSession, allowed, listing).payload.snippets;
    var i :| 0 <= i < |shown| && shown[i] == s;
  }
}

=== FILE: search_index.dfy ===
/** The page the search-index builder (scripts/build-search-index.js) adds for
    each snippet: only public snippets, the files' code joined by blank
    lines, and `<`/`>` escaped by two successive global replacements. The
    pagefind calls and the HTML template around the fields are not modelled. */
module SearchIndex {
  import opened Strings
  import opened Seqs
  import opened Snippets

  /** A listed snippet together with the files the builder reads from it. */
  datatype IndexedSnippet = IndexedSnippet(snippet: Snippet, files: seq<SnippetFile>)

  /** What is added to the index for one snippet. Title and description go
      into the page as they are; only the code is escaped. */
  datatype Page = Page(url: string, title: string, description: string, content: string)

  /** `s.replace(/c/g, rep)`: every `c` replaced by `rep`. */
  function ReplaceAll(s: string, c: char, rep: string): (r: string)
    ensures c !in rep ==> c !in r
    ensures forall d :: d in r ==> d in s || d in rep
    decreases |s|
  {
    if |s| == 0 then ""
    else (if s[0] == c then rep else [s[0]]) + ReplaceAll(s[1..], c, rep)
  }

  /** `content.replace(/</g, '&lt;').replace(/>/g, '&gt;')`. */
  function Escape(s: string): (r: string)
    ensures '<' !in r && '>' !in r
  {
    ReplaceAll(ReplaceAll(s, '<', "&lt;"), '>', "&gt;")
  }

  /** The escape of one character. */
  function EscapeChar(c: char): string {
    if c == '<' then "&lt;" else if c == '>' then "&gt;" else [c]
  }

  /** Escaping character by character, the reference the two passes are compared with. */
  function EscapeEach(s: string): (r: string)
    decreases |s|
  {
    if |s| == 0 then "" else EscapeChar(s[0]) + EscapeEach(s[1..])
  }

  lemma {:induction false} ReplaceAllAppend(a: string, b: string, c: char, rep: string)
    ensures ReplaceAll(a + b, c, rep) == ReplaceAll(a, c, rep) + ReplaceAll(b, c, rep)
    decreases |a|
  {
    if |a| > 0 {
      var head := if a[0] == c then rep else [a[0]];
      assert (a + b)[0] == a[0] && (a + b)[1..] == a[1..] + b;
      ReplaceAllAppend(a[1..], b, c, rep);
      assert ReplaceAll(a + b, c, rep) == head + ReplaceAll(a[1..] + b, c, rep);
      assert ReplaceAll(a, c, rep) == head + ReplaceAll(a[1..], c, rep);
    } else {
      assert a + b == b;
    }
  }

  /** The two passes escape each character independently: the `&lt;` the
      first pass writes holds no `>` for the second to touch. */
  lemma {:induction false} TwoPassesEscapeEach(s: string)
    ensures Escape(s) == EscapeEach(s)
    decreases |s|
  {
    if |s| > 0 {
      TwoPassesEscapeEach(s[1..]);
      var first := if s[0] == '<' then "&lt;" else [s[0]];
      assert ReplaceAll(s, '<', "&lt;") == first + ReplaceAll(s[1..], '<', "&lt;");
      ReplaceAllAppend(first, ReplaceAll(s[1..], '<', "&lt;"), '>', "&gt;");
      if s[0] == '<' {
        assert ReplaceAll("&lt;", '>', "&gt;") == "&lt;" by {
          assert "&lt;"[1..] == "lt;";
          assert "lt;"[1..] == "t;";
          assert "t;"[1..] == ";";
          assert ";"[1..] == "";
        }
      } else {
        assert ReplaceAll([s[0]], '>', "&gt;") == EscapeChar(s[0]) by {
          assert [s[0]][1..] == "";
        }
      }
    }
  }

  /** Escaping leaves every other character, `&` included, where it was:
      text without `<` and `>` is unchanged. */
  lemma EscapeKeepsOthers(s: string)
    requires '<' !in s && '>' !in s
    ensures Escape(s) == s
  {
    TwoPassesEscapeEach(s);
    EscapeEachKeepsOthers(s);
  }

  lemma {:induction false} EscapeEachKeepsOthers(s: string)
    requires '<' !in s && '>' !in s
    ensures EscapeEach(s) == s
    decreases |s|
  {
    if |s| > 0 {
      assert s[0] in s;
      EscapeEachKeepsOthers(s[1..]);
      assert s == [s[0]] + s[1..];
    }
  }

  /** Reading `&lt;` and `&gt;` back as `<` and `>`. */
  function Unescape(t: string): string
    decreases |t|
  {
    if |t| >= 4 && t[..4] == "&lt;" then "<" + Unescape(t[4..])
    else if |t| >= 4 && t[..4] == "&gt;" then ">" + Unescape(t[4..])
    else if |t| == 0 then ""
    else [t[0]] + Unescape(t[1..])
  }

  /** Round trip: code without `&` is recovered from its escape. With `&` it
      need not be, since code already reading `&lt;` is indistinguishable
      from an escaped `<`. */
  lemma UnescapeEscape(s: string)
    requires '&' !in s
    ensures Unescape(Escape(s)) == s
  {
    TwoPassesEscapeEach(s);
    UnescapeEscapeEach(s);
  }

  lemma {:induction false} UnescapeEscapeEach(s: string)
    requires '&' !in s
    ensures Unescape(EscapeEach(s)) == s
    decreases |s|
  {
    if |s| > 0 {
      assert s[0] in s;
      UnescapeEscapeEach(s[1..]);
      var t := EscapeEach(s);
      var rest := EscapeEach(s[1..]);
      assert t == EscapeChar(s[0]) + rest;
      if s[0] == '<' {
        assert t[..4] == "&lt;" && t[4..] == rest;
        assert Unescape(t) == "<" + Unescape(rest);
      } else if s[0] == '>' {
        assert t[..4] == "&gt;" && t[4..] == rest;
        assert Unescape(t) == ">" + Unescape(rest);
      } else {
        assert t[0] == s[0] && t[0] != '&' && t[1..] == rest;
        assert !(|t| >= 4 && (t[..4] == "&lt;" || t[..4] == "&gt;")) by {
          if |t| >= 4 {
            assert t[..4][0] == t[0];
          }
        }
        assert Unescape(t) == [s[0]] + Unescape(rest);
      }
      assert s == [s[0]] + s[1..];
    }
  }

  /** `snippet.files.map(f => f.code).join('\n\n')`. */
  function JoinedCode(files: seq<SnippetFile>): (content: string)
    ensures |files| == 1 ==> content == files[0].code
  {
    Join(seq(|files|, i requires 0 <= i < |files| => files[i].code), "\n\n")
  }

  /** One more file adds a blank line and its code at the end, so the code of
      the files appears in file order. */
  lemma JoinedCodeAppend(files: seq<SnippetFile>, f: SnippetFile)
    requires |files| >= 1
    ensures JoinedCode(files + [f]) == JoinedCode(files) + "\n\n" + f.code
  {
    var codes := seq(|files|, i requires 0 <= i < |files| => files[i].code);
    var all := files + [f];
    assert seq(|all|, i requires 0 <= i < |all| => all[i].code) == codes + [f.code];
    JoinAppend(codes, [f.code], "\n\n");
  }

  /** The page for one snippet, at `/snippet/<id>`. */
  function PageOf(s: IndexedSnippet): (p: Page)
    ensures p.url == "/snippet/" + s.snippet.id
    ensures p.content == Escape(JoinedCode(s.files))
    ensures '<' !in p.content && '>' !in p.content
  {
    Page("/snippet/" + s.snippet.id, s.snippet.title, s.snippet.description, Escape(JoinedCode(s.files)))
  }

  /** The snippets the builder indexes: the public ones, in listing order. */
  function PublicSnippets(snippets: seq<IndexedSnippet>): (pub: seq<IndexedSnippet>)
    ensures IsSubsequence(pub, snippets)
    ensures forall i :: 0 <= i < |pub| ==> pub[i].snippet.isPublic
    ensures forall s :: multiset(pub)[s] == if s.snippet.isPublic then multiset(snippets)[s] else 0
  {
    FilterCountAll(snippets, (s: IndexedSnippet) => s.snippet.isPublic);
    Filter(snippets, (s: IndexedSnippet) => s.snippet.isPublic)
  }

  /** The loop of the builder: a page per public snippet, in listing order. */
  function BuildPages(snippets: seq<IndexedSnippet>): (pages: seq<Page>)
    ensures |pages| == |PublicSnippets(snippets)| <= |snippets|
    ensures forall i :: 0 <= i < |pages| ==> pages[i] == PageOf(PublicSnippets(snippets)[i])
  {
    var pub := PublicSnippets(snippets);
    seq(|pub|, i requires 0 <= i < |pub| => PageOf(pub[i]))
  }

  /** Every page comes from a public snippet of the listing, at that
      snippet's URL, and its code is free of `<` and `>`. */
  lemma PagesArePublicAndEscaped(snippets: seq<IndexedSnippet>, p: Page)
    requires p in BuildPages(snippets)
    ensures exists s :: s in snippets && s.snippet.isPublic && p == PageOf(s)
    ensures '<' !in p.content && '>' !in p.content
  {
    var pub := PublicSnippets(snippets);
    var i :| 0 <= i < |pub| && BuildPages(snippets)[i] == p;
    assert pub[i] in snippets && pub[i].snippet.isPublic;
  }

  /** Every public snippet of the listing gets its page. */
  lemma PublicSnippetsIndexed(snippets: seq<IndexedSnippet>, s: IndexedSnippet)
    requires s in snippets && s.snippet.isPublic
    ensures PageOf(s) in BuildPages(snippets)
  {
    var pub := PublicSnippets(snippets);
    var j :| 0 <= j < |snippets| && snippets[j] == s;
    assert s in pub;
    var i :| 0 <= i < |pub| && pub[i] == s;
    assert BuildPages(snippets)[i] == PageOf(s);
  }
}

=== FILE: seqs.dfy ===
/** Order-preserving filtering of sequences, as `Array.prototype.filter` does it. */
module Seqs {

  /** `a` can be obtained from `b` by deleting elements, keeping the order of the rest. */
  predicate IsSubsequence<T(==)>(a: seq<T>, b: seq<T>)
    decreases |b|
  {
    if |a| == 0 then true
    else if |b| == 0 then false
    else if a[0] == b[0] then IsSubsequence(a[1..], b[1..])
    else IsSubsequence(a, b[1..])
  }

  /** The elements of `s` that satisfy `keep`, in their original order. */
  function Filter<T(==,!new)>(s: seq<T>, keep: T -> bool): (r: seq<T>)
    ensures forall i :: 0 <= i < |r| ==> r[i] in s && keep(r[i])
    ensures forall i :: 0 <= i < |s| && keep(s[i]) ==> s[i] in r
    ensures IsSubsequence(r, s)
    ensures |r| <= |s|
    ensures (forall i :: 0 <= i < |s| ==> keep(s[i])) ==> r == s
  {
    if |s| == 0 then []
    else
      var rest := Filter(s[1..], keep);
      if keep(s[0]) then [s[0]] + rest else rest
  }

  /** Filtering keeps every element that passes as often as it occurs, and
      no other. */
  lemma {:induction false} FilterCount<T(!new)>(s: seq<T>, keep: T -> bool, x: T)
    ensures multiset(Filter(s, keep))[x] == if keep(x) then multiset(s)[x] else 0
    decreases |s|
  {
    if |s| > 0 {
      FilterCount(s[1..], keep, x);
      CountCons(s, x);
      FilterCountStep(s, keep, x);
    }
  }

  /** The count of `x` in `s` is that of its head plus that of its tail. */
  lemma CountCons<T>(s: seq<T>, x: T)
    requires |s| > 0
    ensures multiset(s)[x] == (if s[0] == x then 1 else 0) + multiset(s[1..])[x]
  {
    assert s == [s[0]] + s[1..];
  }

  /** One step of filtering: the head counts only when it passes. */
  lemma FilterCountStep<T(!new)>(s: seq<T>, keep: T -> bool, x: T)
    requires |s| > 0
    ensures multiset(Filter(s, keep))[x]
      == (if keep(s[0]) && s[0] == x then 1 else 0) + multiset(Filter(s[1..], keep))[x]
  {
    var rest := Filter(s[1..], keep);
    if keep(s[0]) {
      assert Filter(s, keep) == [s[0]] + rest;
      CountCons(Filter(s, keep), x);
    } else {
      assert Filter(s, keep) == rest;
    }
  }

  /** `FilterCount` for every element at once. */
  lemma FilterCountAll<T(!new)>(s: seq<T>, keep: T -> bool)
    ensures forall x :: multiset(Filter(s, keep))[x] == if keep(x) then multiset(s)[x] else 0
  {
    forall x
      ensures multiset(Filter(s, keep))[x] == if keep(x) then multiset(s)[x] else 0
    {
      FilterCount(s, keep, x);
    }
  }

  /** Every sequence is a subsequence of itself. */
  lemma {:induction false} SubsequenceReflexive<T>(s: seq<T>)
    ensures IsSubsequence(s, s)
    decreases |s|
  {
    if |s| > 0 {
      SubsequenceReflexive(s[1..]);
    }
  }
}

=== FILE: snippet.dfy ===
/** The records the application passes around (src/lib/github.ts). Timestamps,
    ISO-8601 strings in the application, are integers here so that ordering
    them is integer comparison. */
module Snippets {

  /** A stored snippet as the repository returns it. */
  datatype Snippet = Snippet(
    id: string,
    title: string,
    description: string,
    language: string,
    code: string,
    filename: string,
    createdAt: int,
    updatedAt: int,
    tags: seq<string>,
    isPublic: bool
  )

  /** What the caller supplies to create or update a snippet: a snippet
      without its id, filename and timestamps. */
  datatype SnippetInput = SnippetInput(
    title: string,
    description: string,
    language: string,
    code: string,
    tags: seq<string>,
    isPublic: bool
  )

  /** One named file of a multi-file snippet, as the file views and the search
      index builder read it. */
  datatype SnippetFile = SnippetFile(filename: string, language: string, code: string)
}

=== FILE: sorting.dfy ===
/** The order of the snippet list: newest `updatedAt` first. `Array.prototype.sort`
    is stable, so snippets with equal timestamps keep the order they were
    read in; the insertion sort below inserts each later snippet behind the
    ones of equal age, which keeps that order too. */
module Sorting {
  import opened Snippets

  /** Each snippet was updated no earlier than every snippet after it. */
  predicate NewestFirst(s: seq<Snippet>) {
    forall i, j :: 0 <= i < j < |s| ==> s[i].updatedAt >= s[j].updatedAt
  }

  /** No two snippets share a filename. */
  predicate DistinctFilenames(s: seq<Snippet>) {
    forall i, j :: 0 <= i < j < |s| ==> s[i].filename != s[j].filename
  }

  /** Puts `x` into a list behind every snippet at least as new as `x`: one
      more element, the same snippets plus `x`, and a head that is either `x`
      or the old head. */
  function Insert(x: Snippet, sorted: seq<Snippet>): (r: seq<Snippet>)
    ensures multiset(r) == multiset(sorted) + multiset{x}
    ensures |r| == |sorted| + 1
    ensures r[0] == x || (|sorted| > 0 && r[0] == sorted[0])
    decreases |sorted|
  {
    if |sorted| == 0 then [x]
    else if x.updatedAt > sorted[0].updatedAt then [x] + sorted
    else
      var tail := sorted[1..];
      assert sorted == [sorted[0]] + tail;
      [sorted[0]] + Insert(x, tail)
  }

  /** A snippet at least as new as every member of a newest-first list can
      go in front of it. */
  lemma ConsNewestFirst(h: Snippet, rest: seq<Snippet>)
    requires NewestFirst(rest)
    requires forall k :: 0 <= k < |rest| ==> rest[k].updatedAt <= h.updatedAt
    ensures NewestFirst([h] + rest)
  {
    var s := [h] + rest;
    forall i, j | 0 <= i < j < |s|
      ensures s[i].updatedAt >= s[j].updatedAt
    {
      assert s[j] == rest[j - 1];
      if i > 0 {
        assert s[i] == rest[i - 1];
      }
    }
  }

  /** Inserting into a newest-first list keeps it newest first. */
  lemma {:induction false} InsertNewestFirst(x: Snippet, sorted: seq<Snippet>)
    requires NewestFirst(sorted)
    ensures NewestFirst(Insert(x, sorted))
    decreases |sorted|
  {
    if |sorted| > 0 {
      var tail := sorted[1..];
      if x.updatedAt > sorted[0].updatedAt {
        ConsNewestFirst(x, sorted);
      } else {
        assert NewestFirst(tail);
        InsertNewestFirst(x, tail);
        var rest := Insert(x, tail);
        forall k | 0 <= k < |rest|
          ensures rest[k].updatedAt <= sorted[0].updatedAt
        {
          assert rest[k].updatedAt <= rest[0].updatedAt;
        }
        ConsNewestFirst(sorted[0], rest);
      }
    }
  }

  /** `snippets.sort((a, b) => b.updatedAt - a.updatedAt)`: newest first and a
      permutation of the input. */
  function SortNewestFirst(s: seq<Snippet>): (r: seq<Snippet>)
    ensures NewestFirst(r)
    ensures multiset(r) == multiset(s)
    decreases |s|
  {
    if |s| == 0 then []
    else
      var init := s[..|s| - 1];
      assert s == init + [s[|s| - 1]];
      InsertNewestFirst(s[|s| - 1], SortNewestFirst(init));
      Insert(s[|s| - 1], SortNewestFirst(init))
  }

  /** With distinct filenames no snippet occurs twice. */
  lemma {:induction false} DistinctCount(s: seq<Snippet>, x: Snippet)
    requires DistinctFilenames(s)
    ensures multiset(s)[x] <= 1
    decreases |s|
  {
    if |s| > 0 {
      var tail := s[1..];
      assert s == [s[0]] + tail;
      DistinctCount(tail, x);
      if s[0] == x {
        assert forall k :: 0 <= k < |tail| ==> tail[k].filename != x.filename by {
          forall k | 0 <= k < |tail| ensures tail[k].filename != x.filename {
            assert tail[k] == s[k + 1];
          }
        }
        assert x !in tail;
      }
    }
  }

  /** Sorting keeps every snippet exactly once: the sorted list has the same
      members, and a list with distinct snippets stays without repeats. */
  lemma SortedMembers(s: seq<Snippet>)
    ensures |SortNewestFirst(s)| == |s|
    ensures forall x :: x in SortNewestFirst(s) <==> x in s
    ensures DistinctFilenames(s) ==> forall x :: multiset(SortNewestFirst(s))[x] <= 1
  {
    var r := SortNewestFirst(s);
    assert |r| == |multiset(r)| == |multiset(s)| == |s|;
    forall x
      ensures x in r <==> x in s
    {
      assert x in r <==> x in multiset(r);
    }
    if DistinctFilenames(s) {
      forall x
        ensures multiset(r)[x] <= 1
      {
        DistinctCount(s, x);
      }
    }
  }
}

=== FILE: store.dfy ===
/** The part of the GitHub contents API the repository layer calls
    (`repos.getContent`, `repos.createOrUpdateFileContents`,
    `repos.deleteFile`), over one branch of one repository. Files are keyed by
    their full path; directories are not stored but exist while some file
    lies below them. Every write carries the blob sha it expects to replace
    and appends one commit. The base64 transport and the YAML front matter
    text are abstracted: a file holds its parsed front matter and body, or
    text that front-matter parsing rejects. */
module Store {
  import opened Base
  import opened Strings

  /** Front matter as parsed; `None` is a missing key. Timestamps are integers. */
  datatype FrontMatter = FrontMatter(
    title: Option<string>,
    description: Option<string>,
    language: Option<string>,
    createdAt: Option<int>,
    updatedAt: Option<int>,
    tags: Option<seq<string>>,
    isPublic: Option<bool>
  )

  /** What `matter(content)` yields: the front matter and the body after it,
      or a failure to parse, which throws. */
  datatype Content = Document(front: FrontMatter, body: string) | Unparseable

  /** A stored object. `regular` is false for the entries the API reports with a
      type other than `file` (symlinks, submodules). */
  datatype Blob = Blob(regular: bool, content: Content, sha: string)

  datatype Commit = Commit(message: string, path: string)

  /** The branch: files by path and the commits made so far. */
  datatype Remote = Remote(files: map<string, Blob>, log: seq<Commit>)

  /** Paths on which calls throw (network failures, rate limits, revoked
      tokens), separately for reads and writes. */
  datatype Faults = Faults(failingReads: set<string>, failingWrites: set<string>)

  datatype ApiError = NotFound | Conflict | NotAFile | Unavailable

  datatype EntryKind = FileEntry | DirEntry | OtherEntry

  /** One item of a directory listing: its name, full path and `type`. */
  datatype Entry = Entry(name: string, path: string, kind: EntryKind)

  /** What `getContent` answers for a path: a file object or a directory array. */
  datatype Node = FileNode(name: string, path: string, blob: Blob) | DirNode(entries: set<Entry>)

  /** `path` joined below `dir`. */
  function Child(dir: string, name: string): string {
    dir + "/" + name
  }

  /** `key` lies somewhere below directory `dir`. */
  predicate Below(dir: string, key: string) {
    |dir| + 1 <= |key| && key[..|dir| + 1] == dir + "/"
  }

  /** The part of `key` below `dir`. */
  function Relative(dir: string, key: string): string
    requires Below(dir, key)
  {
    key[|dir| + 1..]
  }

  /** A directory exists while some file lies below it. */
  predicate IsDirectory(files: map<string, Blob>, dir: string) {
    exists key :: key in files && Below(dir, key)
  }

  /** Some file lies above `key`, where `key` would need a directory. */
  predicate UnderFile(files: map<string, Blob>, key: string) {
    exists p :: p in files && Below(p, key)
  }

  /** The immediate children of `dir`: the files directly in it, and one entry
      per sub-directory. */
  function Listing(files: map<string, Blob>, dir: string): (entries: set<Entry>)
    ensures forall e :: e in entries && e.kind != DirEntry ==>
      e.path in files && e.path == Child(dir, e.name) && '/' !in e.name
      && (e.kind == FileEntry <==> files[e.path].regular)
    ensures forall key :: key in files && Below(dir, key) && '/' !in Relative(dir, key) ==>
      Entry(Relative(dir, key), key, if files[key].regular then FileEntry else OtherEntry) in entries
  {
    var direct := set key | key in files && Below(dir, key) && '/' !in Relative(dir, key)
      :: Entry(Relative(dir, key), key, if files[key].regular then FileEntry else OtherEntry);
    var nested := set key | key in files && Below(dir, key) && '/' in Relative(dir, key)
      :: Entry(Split(Relative(dir, key), '/')[0], Child(dir, Split(Relative(dir, key), '/')[0]), DirEntry);
    assert forall key :: key in files && Below(dir, key) ==> key == Child(dir, Relative(dir, key));
    direct + nested
  }

  /** `repos.getContent({path})`: the file at the path, else the listing of the
      directory there, else a not-found error; a faulty path throws. */
  function GetContent(remote: Remote, faults: Faults, path: string): (r: Result<Node, ApiError>)
    ensures path in faults.failingReads ==> r == Failure(Unavailable)
    ensures path !in faults.failingReads && path in remote.files ==>
      r == Success(FileNode(LastPiece(path, '/'), path, remote.files[path]))
    ensures path !in faults.failingReads && path !in remote.files ==>
      (r.Success? <==> IsDirectory(remote.files, path))
    ensures r.Success? && r.value.DirNode? ==> r.value.entries == Listing(remote.files, path)
  {
    if path in faults.failingReads then Failure(Unavailable)
    else if path in remote.files then Success(FileNode(LastPiece(path, '/'), path, remote.files[path]))
    else if IsDirectory(remote.files, path) then Success(DirNode(Listing(remote.files, path)))
    else Failure(NotFound)
  }

  /** `repos.createOrUpdateFileContents`: without a sha it creates a file that
      must not exist yet; with one it replaces a file whose current sha is that
      sha. A path holding a directory, or lying below a file, is refused. On success the file holds the
      new content under the server's `newSha` and one commit is appended. */
  function PutFile(remote: Remote, faults: Faults, path: string, content: Content,
                   message: string, sha: Option<string>, newSha: string): (r: Result<Remote, ApiError>)
    ensures r.Success? <==>
      && path !in faults.failingWrites
      && !IsDirectory(remote.files, path)
      && !UnderFile(remote.files, path)
      && (if path in remote.files then sha == Some(remote.files[path].sha) else sha.None?)
    ensures r.Success? ==>
      && r.value.files == remote.files[path := Blob(true, content, newSha)]
      && r.value.log == remote.log + [Commit(message, path)]
  {
    if path in faults.failingWrites then Failure(Unavailable)
    else if IsDirectory(remote.files, path) || UnderFile(remote.files, path) then Failure(NotAFile)
    else if path in remote.files && sha != Some(remote.files[path].sha) then Failure(Conflict)
    else if path !in remote.files && sha.Some? then Failure(NotFound)
    else Success(Remote(remote.files[path := Blob(true, content, newSha)],
                        remote.log + [Commit(message, path)]))
  }

  /** `repos.deleteFile`: removes an existing file whose current sha is the
      given one and appends one commit. */
  function DeleteFile(remote: Remote, faults: Faults, path: string, message: string, sha: string)
    : (r: Result<Remote, ApiError>)
    ensures r.Success? <==>
      path !in faults.failingWrites && path in remote.files && remote.files[path].sha == sha
    ensures r.Success? ==>
      && r.value.files == remote.files - {path}
      && r.value.log == remote.log + [Commit(message, path)]
  {
    if path in faults.failingWrites then Failure(Unavailable)
    else if path !in remote.files then Failure(NotFound)
    else if remote.files[path].sha != sha then Failure(Conflict)
    else Success(Remote(remote.files - {path}, remote.log + [Commit(message, path)]))
  }

  /** Optimistic concurrency: a write made with a sha read before another
      successful write to the same path is refused once that first write gave
      the file a new sha. On GitHub the sha is the hash of the file's blob, so
      that is when the first write changed the file's content; rewriting the
      same content keeps the sha, and the stale sha is then accepted. */
  lemma StaleShaRejected(remote: Remote, faults: Faults, path: string,
                         first: Content, second: Content, m1: string, m2: string,
                         newSha1: string, newSha2: string)
    requires path in remote.files
    requires newSha1 != remote.files[path].sha
    ensures var sha := Some(remote.files[path].sha);
      var r1 := PutFile(remote, faults, path, first, m1, sha, newSha1);
      r1.Success? ==> PutFile(r1.value, faults, path, second, m2, sha, newSha2) == Failure(Conflict)
  {
  }

  /** Writing then reading a path yields the content written, under the name
      after the last `/`. */
  lemma PutThenGet(remote: Remote, faults: Faults, path: string, content: Content,
                   message: string, sha: Option<string>, newSha: string)
    requires path !in faults.failingReads
    ensures var r := PutFile(remote, faults, path, content, message, sha, newSha);
      r.Success? ==>
        GetContent(r.value, faults, path)
          == Success(FileNode(LastPiece(path, '/'), path, Blob(true, content, newSha)))
  {
  }

  /** A file written directly into a directory shows up in that directory's
      listing as a file entry under its own name. */
  lemma WrittenFileListed(remote: Remote, faults: Faults, dir: string, name: string,
                          content: Content, message: string, newSha: string)
    requires '/' !in name
    ensures var r := PutFile(remote, faults, Child(dir, name), content, message, None, newSha);
      r.Success? ==>
        && IsDirectory(r.value.files, dir)
        && Entry(name, Child(dir, name), FileEntry) in Listing(r.value.files, dir)
  {
    var path := Child(dir, name);
    var r := PutFile(remote, faults, path, content, message, None, newSha);
    if r.Success? {
      assert Below(dir, path) && Relative(dir, path) == name by {
        assert path[..|dir| + 1] == dir + "/";
        assert path[|dir| + 1..] == name;
      }
      assert path in r.value.files;
    }
  }
}

=== FILE: strings.dfy ===
/** The JavaScript string operations the application relies on, with their
    JavaScript meaning: `split` on one character, `join`, `trim`,
    `toLowerCase`, `endsWith`, `indexOf`, a first-occurrence `replace` and a
    global one-character `replace`. */
module Strings {
  import opened Base

  /** The WhiteSpace and LineTerminator code points that `String.prototype.trim` removes. */
  predicate IsJsSpace(c: char) {
    || c == '\t' || c == '\n' || c == '\U{000B}' || c == '\U{000C}' || c == '\r' || c == ' '
    || c == '\U{00A0}' || c == '\U{1680}' || ('\U{2000}' <= c <= '\U{200A}')
    || c == '\U{2028}' || c == '\U{2029}' || c == '\U{202F}' || c == '\U{205F}'
    || c == '\U{3000}' || c == '\U{FEFF}'
  }

  /** `s` neither starts nor ends with white space. */
  predicate IsTrimmed(s: string) {
    |s| == 0 || (!IsJsSpace(s[0]) && !IsJsSpace(s[|s| - 1]))
  }

  /** Drops the leading white space of `s`. */
  function TrimStart(s: string): (r: string)
    ensures |r| <= |s| && s[|s| - |r|..] == r
    ensures forall k :: 0 <= k < |s| - |r| ==> IsJsSpace(s[k])
    ensures |r| > 0 ==> !IsJsSpace(r[0])
    decreases |s|
  {
    if |s| > 0 && IsJsSpace(s[0]) then TrimStart(s[1..]) else s
  }

  /** Drops the trailing white space of `s`. */
  function TrimEnd(s: string): (r: string)
    ensures |r| <= |s| && s[..|r|] == r
    ensures forall k :: |r| <= k < |s| ==> IsJsSpace(s[k])
    ensures |r| > 0 ==> !IsJsSpace(r[|r| - 1])
    decreases |s|
  {
    if |s| > 0 && IsJsSpace(s[|s| - 1]) then TrimEnd(s[..|s| - 1]) else s
  }

  /** Every character of `w` is white space. */
  predicate AllSpace(w: string) {
    forall k :: 0 <= k < |w| ==> IsJsSpace(w[k])
  }

  /** `s` is `r` with white space `lead` in front of it and `trail` behind it. */
  predicate SpaceAround(s: string, lead: string, r: string, trail: string) {
    s == lead + r + trail && AllSpace(lead) && AllSpace(trail)
  }

  /** `s.trim()`: the part of `s` left once the white space at both ends is
      removed, and nothing else. */
  function Trim(s: string): (r: string)
    ensures IsTrimmed(r)
    ensures |r| <= |s|
    ensures exists lead, trail :: SpaceAround(s, lead, r, trail)
  {
    var t := TrimStart(s);
    var r := TrimEnd(t);
    assert |r| > 0 ==> r[0] == t[0];
    assert |r| > 0 ==> !IsJsSpace(r[0]) && !IsJsSpace(r[|r| - 1]);
    var lead, trail := s[..|s| - |t|], t[|r|..];
    TrimStartSplit(s);
    TrimEndSplit(t);
    SpaceAroundJoin(s, lead, t, r, trail);
    assert SpaceAround(s, lead, r, trail);
    r
  }

  /** Trimming the start removes white space only: `s` is that white space
      followed by what is left. */
  lemma TrimStartSplit(s: string)
    ensures var t := TrimStart(s);
      s == s[..|s| - |t|] + t && AllSpace(s[..|s| - |t|])
  {
    var t := TrimStart(s);
    var lead := s[..|s| - |t|];
    forall k | 0 <= k < |lead|
      ensures IsJsSpace(lead[k])
    {
      assert lead[k] == s[k];
    }
  }

  /** Trimming the end removes white space only: `t` is what is left
      followed by that white space. */
  lemma TrimEndSplit(t: string)
    ensures var r := TrimEnd(t);
      t == r + t[|r|..] && AllSpace(t[|r|..])
  {
    var r := TrimEnd(t);
    var trail := t[|r|..];
    forall k | 0 <= k < |trail|
      ensures IsJsSpace(trail[k])
    {
      assert trail[k] == t[|r| + k];
    }
  }

  /** White space in front of `t`, where `t` is `r` followed by white space,
      surrounds `r`. */
  lemma SpaceAroundJoin(s: string, lead: string, t: string, r: string, trail: string)
    requires s == lead + t && t == r + trail && AllSpace(lead) && AllSpace(trail)
    ensures SpaceAround(s, lead, r, trail)
  {
    assert lead + (r + trail) == lead + r + trail;
  }

  /** Trimming leaves an already trimmed string alone, so `Trim` is idempotent. */
  lemma TrimOfTrimmed(s: string)
    requires IsTrimmed(s)
    ensures Trim(s) == s
  {
  }

  /** White space in front of a trimmed string is what `trim` removes. */
  lemma {:induction false} TrimLeadingSpace(s: string, c: char)
    requires IsTrimmed(s) && IsJsSpace(c)
    ensures Trim([c] + s) == s
  {
    assert ([c] + s)[1..] == s;
    assert TrimStart([c] + s) == TrimStart(s);
    TrimOfTrimmed(s);
  }

  /** Trimming adds no character: one absent from `s` is absent from `Trim(s)`. */
  lemma TrimKeepsAbsent(s: string, c: char)
    requires c !in s
    ensures c !in Trim(s)
  {
    var t := TrimStart(s);
    assert t == s[|s| - |t|..];
  }

  /** ASCII upper-case letters to lower case; every other character is kept. */
  function LowerChar(c: char): char {
    if 'A' <= c <= 'Z' then (c as int + 32) as char else c
  }

  /** `s.toLowerCase()` on the ASCII letters. */
  function ToLower(s: string): (r: string)
    ensures |r| == |s|
  {
    seq(|s|, i requires 0 <= i < |s| => LowerChar(s[i]))
  }

  /** Lower-casing twice is lower-casing once. */
  lemma ToLowerIdempotent(s: string)
    ensures ToLower(ToLower(s)) == ToLower(s)
  {
  }

  /** `s.endsWith(suffix)`. */
  predicate EndsWith(s: string, suffix: string) {
    |suffix| <= |s| && s[|s| - |suffix|..] == suffix
  }

  /** `pat` occurs in `s` at index `i`. */
  predicate OccursAt(s: string, pat: string, i: int) {
    0 <= i && i + |pat| <= |s| && s[i..i + |pat|] == pat
  }

  /** `s.indexOf(pat, from)`: the first index at or after `from` where `pat` occurs. */
  function IndexOfFrom(s: string, pat: string, from: nat): (r: Option<nat>)
    ensures r.Some? ==> from <= r.value && OccursAt(s, pat, r.value)
    ensures r.Some? ==> forall k :: from <= k < r.value ==> !OccursAt(s, pat, k)
    ensures r.None? ==> forall k :: from <= k ==> !OccursAt(s, pat, k)
    decreases |s| - from
  {
    if from + |pat| > |s| then None
    else if s[from..from + |pat|] == pat then Some(from)
    else IndexOfFrom(s, pat, from + 1)
  }

  /** `s.indexOf(pat)`. */
  function IndexOf(s: string, pat: string): Option<nat> {
    IndexOfFrom(s, pat, 0)
  }

  /** `pat` occurs somewhere in `s` (`s.includes(pat)`). */
  predicate Contains(s: string, pat: string) {
    exists k | 0 <= k <= |s| :: OccursAt(s, pat, k)
  }

  /** A pattern holding a character that `s` lacks does not occur in `s`. */
  lemma AbsentCharNotContained(s: string, pat: string, c: char)
    requires c in pat && c !in s
    ensures !Contains(s, pat)
  {
    var j :| 0 <= j < |pat| && pat[j] == c;
    forall k | 0 <= k <= |s|
      ensures !OccursAt(s, pat, k)
    {
      if k + |pat| <= |s| {
        assert s[k..k + |pat|][j] == s[k + j] != c;
      }
    }
  }

  /** `s.replace(pat, rep)` with a string pattern: only the first occurrence is replaced. */
  function ReplaceFirst(s: string, pat: string, rep: string): (r: string)
    ensures !Contains(s, pat) ==> r == s
    ensures Contains(s, pat) ==>
      exists i :: OccursAt(s, pat, i) && (forall k :: 0 <= k < i ==> !OccursAt(s, pat, k))
        && r == s[..i] + rep + s[i + |pat|..]
  {
    match IndexOf(s, pat)
    case None => s
    case Some(i) =>
      assert OccursAt(s, pat, i);
      s[..i] + rep + s[i + |pat|..]
  }

  /** When the first occurrence of `pat` is at `i`, the replacement is made
      there. */
  lemma ReplaceFirstAt(s: string, pat: string, rep: string, i: nat)
    requires IndexOf(s, pat) == Some(i)
    ensures i + |pat| <= |s|
    ensures ReplaceFirst(s, pat, rep) == s[..i] + rep + s[i + |pat|..]
  {
    assert IndexOfFrom(s, pat, 0) == Some(i);
    assert OccursAt(s, pat, i);
  }

  /** `s.split(sep)` for a one-character separator: always at least one piece. */
  function Split(s: string, sep: char): (r: seq<string>)
    ensures |r| >= 1
    ensures sep in s ==> |r| >= 2
    ensures forall p :: p in r ==> sep !in p
    decreases |s|
  {
    if |s| == 0 then [""]
    else
      var rest := Split(s[1..], sep);
      if s[0] == sep then [""] + rest
      else [[s[0]] + rest[0]] + rest[1..]
  }

  /** `parts.join(sep)`. */
  function Join(parts: seq<string>, sep: string): string
    decreases |parts|
  {
    if |parts| == 0 then ""
    else if |parts| == 1 then parts[0]
    else parts[0] + sep + Join(parts[1..], sep)
  }

  /** Joining the pieces of a split with the separator restores the string. */
  lemma {:induction false} JoinSplit(s: string, sep: char)
    ensures Join(Split(s, sep), [sep]) == s
    decreases |s|
  {
    if |s| > 0 {
      JoinSplit(s[1..], sep);
      var rest := Split(s[1..], sep);
      if s[0] == sep {
        assert Split(s, sep) == [""] + rest;
        assert ([""] + rest)[1..] == rest;
      } else {
        var r := Split(s, sep);
        assert r == [[s[0]] + rest[0]] + rest[1..];
        if |rest| == 1 {
          assert r == [[s[0]] + rest[0]];
        } else {
          assert r[1..] == rest[1..];
          assert Join(rest, [sep]) == rest[0] + [sep] + Join(rest[1..], [sep]);
        }
      }
      assert s == [s[0]] + s[1..];
    }
  }

  /** A piece free of the separator splits into itself. */
  lemma {:induction false} SplitNoSeparator(s: string, sep: char)
    requires sep !in s
    ensures Split(s, sep) == [s]
    decreases |s|
  {
    if |s| > 0 {
      assert sep !in s[1..];
      SplitNoSeparator(s[1..], sep);
      assert s == [s[0]] + s[1..];
    }
  }

  /** Splitting `a + sep + b`, where `a` has no separator, yields `a` first. */
  lemma {:induction false} SplitAtFirst(a: string, sep: char, b: string)
    requires sep !in a
    ensures Split(a + [sep] + b, sep) == [a] + Split(b, sep)
    decreases |a|
  {
    var s := a + [sep] + b;
    if |a| == 0 {
      assert s == [sep] + b;
      assert s[1..] == b;
    } else {
      assert s[1..] == a[1..] + [sep] + b;
      assert sep !in a[1..];
      SplitAtFirst(a[1..], sep, b);
      assert a == [a[0]] + a[1..];
    }
  }

  /** Splitting a join of separator-free pieces gives the pieces back. */
  lemma {:induction false} SplitJoin(parts: seq<string>, sep: char)
    requires |parts| >= 1
    requires forall i :: 0 <= i < |parts| ==> sep !in parts[i]
    ensures Split(Join(parts, [sep]), sep) == parts
    decreases |parts|
  {
    if |parts| == 1 {
      SplitNoSeparator(parts[0], sep);
    } else {
      SplitJoin(parts[1..], sep);
      SplitAtFirst(parts[0], sep, Join(parts[1..], [sep]));
      assert parts == [parts[0]] + parts[1..];
    }
  }

  /** The last piece of a split lies after the last separator. */
  lemma {:induction false} LastPieceAfterSeparator(a: string, sep: char, b: string)
    ensures var p := Split(a + [sep] + b, sep); var q := Split(b, sep);
      p[|p| - 1] == q[|q| - 1]
    decreases |a|
  {
    var s := a + [sep] + b;
    if |a| == 0 {
      assert s[0] == sep && s[1..] == b;
      SplitLastOfTail(s, sep);
    } else {
      assert s[1..] == a[1..] + [sep] + b;
      assert s[1..][|a| - 1] == sep;
      SplitLastOfTail(s, sep);
      LastPieceAfterSeparator(a[1..], sep, b);
    }
  }

  /** A string that starts with the separator, or has one later, ends in the
      same last piece as its tail. */
  lemma SplitLastOfTail(s: string, sep: char)
    requires |s| > 0 && (s[0] == sep || sep in s[1..])
    ensures var p := Split(s, sep); var q := Split(s[1..], sep);
      p[|p| - 1] == q[|q| - 1]
  {
    var q := Split(s[1..], sep);
    if s[0] != sep {
      assert |q| >= 2;
    }
  }

  /** The part of `s` after its last `sep`; all of it when there is none. */
  function LastPiece(s: string, sep: char): string {
    var pieces := Split(s, sep);
    pieces[|pieces| - 1]
  }

  /** The last piece of `a + sep + b` is `b` when `b` has no separator. */
  lemma LastPieceOf(a: string, sep: char, b: string)
    requires sep !in b
    ensures LastPiece(a + [sep] + b, sep) == b
  {
    LastPieceAfterSeparator(a, sep, b);
    SplitNoSeparator(b, sep);
  }

  /** Joining two non-empty runs of pieces puts one separator between their joins. */
  lemma {:induction false} JoinAppend(a: seq<string>, b: seq<string>, sep: string)
    requires |a| >= 1 && |b| >= 1
    ensures Join(a + b, sep) == Join(a, sep) + sep + Join(b, sep)
    decreases |a|
  {
    if |a| > 1 {
      JoinAppend(a[1..], b, sep);
      assert (a + b)[1..] == a[1..] + b;
    }
  }

  /** Joining a prefix of the pieces gives a prefix of the joined string, and
      a proper prefix of the pieces leaves the separator and the rest behind. */
  lemma JoinPrefix(parts: seq<string>, k: nat, sep: string)
    requires k <= |parts|
    ensures Join(parts[..k], sep) <= Join(parts, sep)
    ensures 1 <= k < |parts| ==>
      Join(parts, sep) == Join(parts[..k], sep) + sep + Join(parts[k..], sep)
  {
    if k == |parts| {
      assert parts[..k] == parts;
    } else if k >= 1 {
      JoinAppend(parts[..k], parts[k..], sep);
      assert parts[..k] + parts[k..] == parts;
    }
  }

  /** `", "` between two strings is a comma followed by a space-prefixed string. */
  lemma CommaSpace(a: string, b: string)
    ensures a + ", " + b == a + "," + (" " + b)
  {
    var l := a + ", " + b;
    var r := a + "," + (" " + b);
    assert |l| == |r|;
    forall i | 0 <= i < |l|
      ensures l[i] == r[i]
    {
      if i < |a| {
      } else if i == |a| {
      } else if i == |a| + 1 {
      } else {
        assert l[i] == b[i - |a| - 2] == r[i];
      }
    }
  }

  /** A placeholder at the very start is the first occurrence. */
  lemma ReplaceAtStart(pat: string, rest: string, rep: string)
    ensures ReplaceFirst(pat + rest, pat, rep) == rep + rest
  {
    var s := pat + rest;
    assert OccursAt(s, pat, 0) by {
      assert s[0..|pat|] == pat;
    }
    assert IndexOf(s, pat) == Some(0);
    assert s[|pat|..] == rest;
    assert s[..0] + rep + s[|pat|..] == rep + rest;
  }
}
